=== FILE: README.md ===
# mdcomp in Dafny

A model of the Markdown merger `mdcomp` and proofs about it. The command-line tool
walks a directory tree or takes a list of files. It keeps the existing regular
files whose names end in ".md" (in any letter case) and sorts them by code point.
It refuses to go on with fewer than two, and asks before overwriting the output.
It then concatenates the files into one document: each file gets a header comment
naming its path and ends on a line boundary, and a separator may follow it.

Besides the tool, the model covers two other parts of the repository:
- the configuration class, with its defaults, deep merge of an override document, and dotted-key lookup;
- the upload filter of the web front end.

Modules, one per concern:

- `Strings`: ASCII lower-casing, suffix test, `str.split` and `str.join` on one character.
- `CodePointOrder`: Python's string order and a stable sort, with the sort shown to be determined by its input's elements.
- `Paths`: POSIX `os.path.join` and the ".md" test.
- `Collect`: the recursive directory walk, over an immutable `Folder` tree that stands in for `os.walk`.
- `Validate`: the existence, file-kind and suffix checks; the filesystem is a map from existing paths to their kind.
- `Merge`: the text the merge writes. File contents are a map, and an unreadable file is simply absent from it.
- `Pipeline`: `main` after argument parsing. Its outcome is a merged document, a cancellation at the overwrite prompt, or one of the failures that end with exit status 1.
- `Config`: `MergerConfig`, with values as a YAML/JSON value tree.
- `Upload`: `allowed_file`.

In three places the code behaves differently from what one might expect, and the model follows the code:

- **Separator.** A separator follows a written file whenever a later entry exists in the input list (`i < len(files) - 1`). It does not depend on a later file actually being written. So when the last listed file is empty or unreadable, the document ends with a separator, even though the code's comment says no separator follows the last file. `Merge.MergeLayout` states exactly when this happens.
- **Header.** The header comment is always written, and its text is fixed. The configuration's `add_file_headers`, `header_format` and `between_files` keys are not read by the merge.
- **Deep merge.** A non-mapping override value replaces a mapping in the defaults wholesale. So a default key below it does not always survive the override.

## Model

| member | source | states |
|---|---|---|
| Strings.LowerLetters | markdown_merger_c_l_i.py:29 | lower-casing moves each upper-case ASCII letter 32 code points up to its lower-case partner and keeps every other character |
| Strings.LowerIdempotent | markdown_merger_c_l_i.py:29 | a lower-cased text has no upper-case letter left, and lower-casing again changes nothing |
| Strings.Split | merger_config.py:72 | splitting a key on dots gives at least one segment, and no segment contains a dot |
| Strings.JoinSplit | merger_config.py:72 | joining the segments with the separator restores the key exactly |
| Strings.SplitJoin | merger_config.py:72 | splitting a join of separator-free segments gives back those segments |
| CodePointOrder.Less | markdown_merger_c_l_i.py:129 | nothing sorts below the empty string |
| CodePointOrder.LessIff | markdown_merger_c_l_i.py:129 | a string sorts before another exactly when it is a proper prefix of it or has the smaller code point where they first differ |
| CodePointOrder.LessTotal | markdown_merger_c_l_i.py:129 | any two different strings are ordered one way or the other |
| CodePointOrder.LessTransitive | markdown_merger_c_l_i.py:129 | the string order is transitive |
| CodePointOrder.LessIrreflexive | markdown_merger_c_l_i.py:129 | no string is smaller than itself |
| CodePointOrder.PrefixIsLess | markdown_merger_c_l_i.py:129 | a proper prefix sorts before the longer string |
| CodePointOrder.SortBy | markdown_merger_c_l_i.py:26 | sorting by a key returns a permutation of the input, ordered by key |
| CodePointOrder.Sort | markdown_merger_c_l_i.py:28 | `sorted` on strings returns a permutation of its input in ascending code-point order |
| CodePointOrder.SortedUnique | markdown_merger_c_l_i.py:26 | two key-sorted permutations of each other, with no key shared by different elements, are equal |
| CodePointOrder.SortDependsOnlyOnMultiset | markdown_merger_c_l_i.py:129 | the sorted list depends only on which strings occur how often |
| CodePointOrder.SortSorted | markdown_merger_c_l_i.py:129 | sorting an already sorted list leaves it unchanged |
| Paths.JoinPath | markdown_merger_c_l_i.py:30 | an absolute name replaces the directory; otherwise the result is the directory, one slash exactly when the directory is non-empty and does not already end in one, then the name |
| Paths.MarkdownPathChars | markdown_merger_c_l_i.py:29 | the ".md" test holds exactly when the last three characters are a dot, m or M, and d or D |
| Paths.JoinKeepsMarkdown | markdown_merger_c_l_i.py:29-30 | joining a Markdown file name onto any directory gives a Markdown path |
| Collect.MarkdownFilesIn | markdown_merger_c_l_i.py:28-31 | a folder's contribution is no longer than its name list and holds only Markdown paths |
| Collect.MarkdownFilesOrigin | markdown_merger_c_l_i.py:28-31 | a folder contributes a path exactly when the path is one of its Markdown names joined onto the folder path |
| Collect.MarkdownFilesSort | markdown_merger_c_l_i.py:28 | sorting a folder's names only permutes the paths drawn from them |
| Collect.SubfoldersSort | markdown_merger_c_l_i.py:26 | visiting the subfolders in name order only permutes what the walk finds below them |
| Collect.CollectMdFiles | markdown_merger_c_l_i.py:12-33 | every path the walk returns passes the ".md" test |
| Collect.CollectComplete | markdown_merger_c_l_i.py:12-33 | the walk returns each Markdown entry of the tree as often as it is listed, joined onto its folder's path, and nothing else; the reference gathers the same entries without sorting |
| Collect.CollectCanon | markdown_merger_c_l_i.py:24-28 | the walk of a tree equals the walk of the same tree with every folder's files and subfolders put in name order, at every depth, given distinct sibling folder names |
| Collect.CollectIgnoresListingOrder | markdown_merger_c_l_i.py:24-28 | two trees that differ only in the order in which any of their folders list files or subfolders give the same walk, given distinct sibling folder names |
| Collect.CanonIgnoresOrder | markdown_merger_c_l_i.py:24-28 | reordering a folder's files, reordering its subfolders and replacing each subfolder by a reordered one all keep the tree's ordered form |
| Collect.JoinMonotone | markdown_merger_c_l_i.py:30 | joining two relative names onto the same directory keeps their order |
| Collect.MarkdownFilesKeepOrder | markdown_merger_c_l_i.py:28-31 | sorted relative names give joined paths in sorted order |
| Collect.OwnFilesFirstAndSorted | markdown_merger_c_l_i.py:24-31 | the walk starts with the folder's own Markdown files, in ascending code-point order, and they are exactly its Markdown names |
| Collect.SubfolderAfterOwnFiles | markdown_merger_c_l_i.py:24-31 | a folder "docs" listing "z.md", "a.md" and a subfolder "sub" with "c.md" walks to "docs/a.md", "docs/z.md", "docs/sub/c.md", which is not in code-point order |
| Validate.Check | markdown_merger_c_l_i.py:113-126 | a path is accepted exactly when it exists, is a regular file and ends in ".md" in any case; otherwise the first failing check names the warning, and the warning names the path |
| Validate.Survivors | markdown_merger_c_l_i.py:113-126 | the kept inputs are no more than the inputs, and each is a given, valid path |
| Validate.SurvivorsCount | markdown_merger_c_l_i.py:111-126 | each valid path is kept as often as it was given, and no invalid path is kept |
| Validate.Warnings | markdown_merger_c_l_i.py:113-124 | every input is either kept or warned about; every warning names a given, invalid path and is exactly the warning the checks give that path |
| Validate.WarningsCount | markdown_merger_c_l_i.py:113-124 | an invalid path is warned about as often as it was given, a valid one never |
| Validate.WarningsInOrder | markdown_merger_c_l_i.py:113-124 | the warnings for two input lists one after the other are the first list's warnings followed by the second's |
| Validate.ValidateInputFiles | markdown_merger_c_l_i.py:101-129 | the result is sorted, holds exactly the valid inputs as often as given, and kept plus warned inputs add up to the inputs |
| Validate.ValidateIgnoresInputOrder | markdown_merger_c_l_i.py:113-129 | reordering the inputs does not change the accepted list |
| Validate.ValidateIdempotent | markdown_merger_c_l_i.py:101-129 | validating an accepted list again keeps all of it unchanged, with no warning |
| Validate.ValidateAllValid | markdown_merger_c_l_i.py:126-129 | when every input is valid, the result is exactly the sorted input |
| Validate.ValidateNoneValid | markdown_merger_c_l_i.py:101-129 | nothing is accepted exactly when no input is valid |
| Merge.ReadMarkdownFile | markdown_merger_c_l_i.py:35-57 | a file yields text only when it was read; a file that cannot be read yields the empty text |
| Merge.Contribution | markdown_merger_c_l_i.py:76-93 | an entry writes nothing exactly when its text is empty |
| Merge.EndWithNewline | markdown_merger_c_l_i.py:88-89 | the text is kept and ends in a line terminator, which is added only when it was missing |
| Merge.MergeDocument | markdown_merger_c_l_i.py:73-93 | the merged text is empty or ends on a line boundary |
| Merge.MergeEmptyIff | markdown_merger_c_l_i.py:73-93 | the merged text is empty exactly when no listed file has text |
| Merge.MergeUsesListedFiles | markdown_merger_c_l_i.py:73-93 | the merged text depends only on the text of the listed files |
| Merge.Truncated | markdown_merger_c_l_i.py:72-76 | once the output is opened for writing, the output path reads as empty and every other path reads as before |
| Merge.OverwrittenInput | markdown_merger_c_l_i.py:72-78 | an input named once, not last, that is the output contributes nothing: the text is that of the other inputs with their own contents |
| Merge.MergeMarkdownFiles | markdown_merger_c_l_i.py:59-99 | the write loop, with its index test for the separator, writes exactly the merged text |
| Merge.ContributionLayout | markdown_merger_c_l_i.py:80-93 | a file with text writes its header, its text, a terminator when needed, then a separator when separators are on and a later entry exists |
| Merge.PresentFacts | markdown_merger_c_l_i.py:76-78 | only listed files with text are written, and nothing is written exactly when no listed file has text |
| Merge.MergeLayout | markdown_merger_c_l_i.py:73-93 | the output is the pieces of the files with text in list order, joined by the separator when separators are on; one more separator follows exactly when separators are on, something was written and the last listed file has no text |
| Merge.SkippedFileLeavesNoTrace | markdown_merger_c_l_i.py:76-78 | a file without text that is not last in the list changes nothing: the output equals that of the list without it |
| Merge.TwoFilesWithSeparators | markdown_merger_c_l_i.py:82-93 | "foo" and "bar\n" merge into header, "foo\n", separator, header, "bar\n", with no trailing separator |
| Merge.TwoFilesWithoutSeparators | markdown_merger_c_l_i.py:82-93 | without separators the two pieces directly follow each other |
| Pipeline.GatherInputs | markdown_merger_c_l_i.py:180-196 | the input list is refused for fewer than two arguments, a missing directory or a non-directory, each exactly in its case; otherwise it is sorted and holds each valid argument, or each valid path of the walk, as often as given, and nothing else |
| Pipeline.Confirms | markdown_merger_c_l_i.py:209-210 | a confirming answer has one to three characters |
| Pipeline.ConfirmsAnswers | markdown_merger_c_l_i.py:209-212 | "J", "Ja", "YES" and "y" confirm; "N", "jaa" and the empty answer decline |
| Pipeline.Run | markdown_merger_c_l_i.py:180-236 | the run merges exactly when at least two inputs were gathered, the overwrite is allowed or confirmed and the write succeeds, and then merges the gathered list as read after the output was emptied; it is cancelled exactly when enough inputs meet a declined prompt; it fails for lack of valid files exactly when none was gathered, for too few exactly when one was, for the write exactly when only the write fails, and with the refusal exactly when gathering refused |
| Pipeline.OutputNotAmongInputs | markdown_merger_c_l_i.py:207-226 | when the output is not an input, the merged text is that of the inputs as they were |
| Pipeline.OutputAmongInputs | markdown_merger_c_l_i.py:207-226 | an existing output named once among the inputs, not last, loses its old text and contributes nothing to the merge |
| Pipeline.DirectoryInputs | markdown_merger_c_l_i.py:186-196 | in directory mode the inputs are exactly the valid Markdown entries of the tree, as often as listed, sorted |
| Pipeline.BothModesAgree | markdown_merger_c_l_i.py:180-196 | naming the tree's Markdown paths as arguments, in any order, gathers the same list as walking the tree |
| Pipeline.NoValidFilesIff | markdown_merger_c_l_i.py:199-201 | with two or more arguments, the run stops for lack of valid files exactly when no argument is valid |
| Pipeline.OneValidFileRefused | markdown_merger_c_l_i.py:203-205 | a single valid argument among any number of invalid ones is refused as too few |
| Pipeline.AllValidArgumentsMerged | markdown_merger_c_l_i.py:180-226 | when every argument is valid and writing is allowed, the sorted arguments are merged, with the output read as empty |
| Config.DefaultConfig | merger_config.py:19-43 | the defaults have exactly the four sections, each a mapping |
| Config.DefaultSeparators | merger_config.py:33-37 | by default the separator text is "---" and file headers are on |
| Config.DefaultMissingKey | merger_config.py:75-79 | a key missing from an existing section yields the caller's default |
| Config.DeepMerge | merger_config.py:62-68 | the merged keys are the union; base-only keys keep their value; an update value replaces unless both sides are mappings, which merge recursively into the merge of the two nested mappings |
| Config.MergeEmptyOverride | merger_config.py:62-68 | an empty override changes nothing |
| Config.MergeSelf | merger_config.py:62-68 | merging a tree over itself gives the same tree |
| Config.MergeIdempotent | merger_config.py:62-68 | applying the same override twice is the same as applying it once |
| Config.GetPath | merger_config.py:73-81 | a path that does not lead through mappings to an entry returns the default |
| Config.Get | merger_config.py:70-81 | a key without a dot is a single lookup in the top mapping, falling back to the default |
| Config.GetFallback | merger_config.py:75-81 | a resolving path returns the stored value whatever the default; any other path returns the default |
| Config.GetPathPrefix | merger_config.py:75-81 | a lookup along a resolving prefix continues from the subtree it reaches |
| Config.GetDotted | merger_config.py:70-81 | a dotted key made of dot-free segments is looked up segment by segment |
| Config.OverrideSetsPath | merger_config.py:62-81 | overriding one path with a non-mapping leaf makes the lookup of that path return the leaf |
| Config.OverrideKeepsOtherPaths | merger_config.py:62-81 | overriding one path leaves every lookup along a diverging path as it was in the base |
| Config.MergeKeepsUntouched | merger_config.py:62-81 | for any override, a lookup along a path the override leaves before the path ends (a missing key below nested mappings) sees the base: siblings survive the merge |
| Config.MergeReadsOverride | merger_config.py:62-81 | for any override, a path leading through it to a non-mapping value reads that value after the merge, whatever the base held |
| Config.SeparatorOverride | merger_config.py:45-81 | a YAML file setting `between_files` and `add_file_headers` changes those two settings and keeps `header_format` and the `output` section at their defaults |
| Config.FormatOf | merger_config.py:49-54 | a supported file name has a dot and at least four characters |
| Config.FormatExamples | merger_config.py:49-54 | ".yaml" and ".yml" pick YAML, ".json" picks JSON, and ".YAML" or ".toml" are unsupported: the test is case-sensitive |
| Config.LoadConfig | merger_config.py:45-60 | the configuration is the defaults unless a named file with a supported suffix parses to a mapping, in which case it is that mapping deep-merged over the defaults; the four sections always remain |
| Config.LoadedOverrideApplies | merger_config.py:45-81 | a YAML file that sets one path to a non-mapping value makes `get` of that path return the value |
| Config.LoadedOverrideKeepsDefaults | merger_config.py:45-81 | the same file leaves every lookup along a path that leaves the overridden one as it was in the defaults |
| Upload.AllowedFile | app.py:17-19 | an accepted name contains a dot and has at least three characters |
| Upload.LastDot | app.py:19 | the index of the last dot: -1 exactly when there is no dot, otherwise a dot with no dot after it |
| Upload.Extension | app.py:19 | the extension contains no dot and the name is the stem, a dot and the extension |
| Upload.AllowedFileSplit | app.py:17-19 | a stem, a dot and a dot-free last segment are accepted exactly when that segment, lower-cased, is an allowed extension |
| Upload.AllowedFileIff | app.py:17-19 | a name is accepted exactly when some dot with no dot after it is followed by an allowed extension in any case |
| Upload.AllowedFileIgnoresCase | app.py:17-19 | a name and its lower-cased form are accepted alike |
| Upload.DoubleExtensionRefused | app.py:12-19 | "a.md.exe" is refused |
| Upload.DoubleExtensionAccepted | app.py:12-19 | "b.exe.md" is accepted |
| Upload.UpperCaseExtension | app.py:12-19 | "README.MD" is accepted |
| Upload.CaseAndTrailingDot | app.py:12-19 | "notes." and "README" are refused |

## Left out

- Argument parsing, console messages, exit codes and the size report after a successful merge are not modelled. `Pipeline.Outcome` records which way the run ended.
- The overwrite prompt's answer and whether writing succeeds are parameters (`Pipeline.Options`); whether the output exists is read from the filesystem map. The model does not describe a write failing part-way through.
- Pipeline.Run: the output counts as one of the inputs only when the two paths are the same string; "./out.md" and "out.md" are not identified. Text already written to the output and flushed from Python's write buffer before the output is read as an input is not modelled: such an input always reads as empty.
- The real filesystem is not modelled: symbolic links, permission errors, and paths changing between the checks and the reads. `os.walk` is replaced by a finite `Collect.Folder` tree; its root is not checked against the filesystem map.
- File reading, UTF-8 decoding and its errors are not modelled. A file that cannot be read is absent from the contents map and reads as empty, as `read_markdown_file` returns "" for it. The contents map holds the text as `read()` returns it in text mode, that is after universal-newline translation (`\r\n` and `\r` become `\n`); `Merge.EndWithNewline` sees that translated text.
- Strings.LowerLetters: lower-cases ASCII letters only, not the full Unicode case mapping of `str.lower`.
- The YAML and JSON parsers are not modelled; `Config.LoadConfig` receives their results as parameters. Floating-point values, dates and timestamps, sets, binary values and non-string mapping keys, all of which `yaml.safe_load` can produce, are left out of `Config.Value`.
- The configuration keys (`output`, `processing`, `filters`, and the separator keys) are not read by the merge. So the configuration is not connected to `Pipeline.Run`.
- In the web front end, only `allowed_file` and `ALLOWED_EXTENSIONS` are modelled. The routes, `secure_filename`, temporary directories and the upload size limit are not.
- The in-place updates of `MergerConfig.config` and of `dirs` during the walk are modelled as pure functions returning new values.

=== FILE: collect.dfy ===
/**
 The recursive directory walk that gathers Markdown files
 (`collect_md_files_from_directory`). `os.walk` is replaced by an immutable
 tree: each folder carries the names it lists, in whatever order the
 filesystem returned them.
 */
module Collect {
  import opened Strings
  import opened CodePointOrder
  import opened Paths

  /**
   A directory as a walk sees it: its own name inside its parent, the names of
   its non-directory entries, and its subdirectories, both in listing order.
   */
  datatype Folder = Folder(name: string, files: seq<string>, subfolders: seq<Folder>)

  function NameOf(f: Folder): string
  {
    f.name
  }

  /** The Markdown names among `names`, in the given order, each joined onto `dir`. */
  function MarkdownFilesIn(dir: string, names: seq<string>): (r: seq<string>)
    ensures |r| <= |names|
    ensures forall p :: p in r ==> IsMarkdownPath(p)
  {
    if |names| == 0 then []
    else
      var rest := MarkdownFilesIn(dir, names[1..]);
      if IsMarkdownPath(names[0]) then
        JoinKeepsMarkdown(dir, names[0]);
        [JoinPath(dir, names[0])] + rest
      else
        rest
  }

  /** The filter keeps exactly the Markdown names, each joined onto `dir`. */
  lemma {:induction false} MarkdownFilesOrigin(dir: string, names: seq<string>)
    ensures forall p :: p in MarkdownFilesIn(dir, names) <==>
      exists i :: 0 <= i < |names| && IsMarkdownPath(names[i]) && p == JoinPath(dir, names[i])
  {
    if |names| > 0 {
      var tail := names[1..];
      MarkdownFilesOrigin(dir, tail);
      forall p
        ensures p in MarkdownFilesIn(dir, names) <==>
          exists i :: 0 <= i < |names| && IsMarkdownPath(names[i]) && p == JoinPath(dir, names[i])
      {
        if p in MarkdownFilesIn(dir, tail) {
          var k :| 0 <= k < |tail| && IsMarkdownPath(tail[k]) && p == JoinPath(dir, tail[k]);
          assert names[k + 1] == tail[k];
        }
        if exists i :: 0 <= i < |names| && IsMarkdownPath(names[i]) && p == JoinPath(dir, names[i]) {
          var i :| 0 <= i < |names| && IsMarkdownPath(names[i]) && p == JoinPath(dir, names[i]);
          if i > 0 {
            assert tail[i - 1] == names[i];
          }
        }
      }
    }
  }

  /**
   `collect_md_files_from_directory(root)`: the folder's own Markdown files in
   ascending name order, then, for each subfolder in ascending name order, the
   same walk below it with the subfolder's name joined onto `root`.
   */
  function CollectMdFiles(root: string, folder: Folder): (r: seq<string>)
    ensures forall p :: p in r ==> IsMarkdownPath(p)
    decreases folder, 1
  {
    var subs := SortBy(folder.subfolders, NameOf);
    MarkdownFilesIn(root, Sort(folder.files)) + CollectSubfolders(root, subs, folder)
  }

  /** Each of `subs` is a distinct listing entry of `parent`; this is what makes the walk terminate. */
  predicate Within(subs: seq<Folder>, parent: Folder)
  {
    multiset(subs) <= multiset(parent.subfolders)
  }

  /** Dropping the first entry keeps the rest within the parent. */
  lemma WithinTail(subs: seq<Folder>, parent: Folder)
    requires Within(subs, parent) && |subs| > 0
    ensures subs[0] in parent.subfolders
    ensures Within(subs[1..], parent)
  {
    assert subs == [subs[0]] + subs[1..];
    assert subs[0] in multiset(parent.subfolders);
  }

  /** The walks below each of `subs`, concatenated in the order given. */
  function CollectSubfolders(root: string, subs: seq<Folder>, ghost parent: Folder): (r: seq<string>)
    requires Within(subs, parent)
    ensures forall p :: p in r ==> IsMarkdownPath(p)
    decreases parent, 0, |subs|
  {
    if |subs| == 0 then []
    else
      WithinTail(subs, parent);
      CollectMdFiles(JoinPath(root, subs[0].name), subs[0]) + CollectSubfolders(root, subs[1..], parent)
  }

  /**
   Reference for completeness: every Markdown entry of the tree as a path under
   `root`, once per listing entry, gathered in listing order without sorting.
   */
  ghost function MdPaths(root: string, folder: Folder): multiset<string>
    decreases folder, 1
  {
    multiset(MarkdownFilesIn(root, folder.files)) + MdPathsBelow(root, folder.subfolders, folder)
  }

  ghost function MdPathsBelow(root: string, subs: seq<Folder>, parent: Folder): multiset<string>
    requires Within(subs, parent)
    decreases parent, 0, |subs|
  {
    if |subs| == 0 then multiset{}
    else
      WithinTail(subs, parent);
      MdPaths(JoinPath(root, subs[0].name), subs[0]) + MdPathsBelow(root, subs[1..], parent)
  }

  lemma {:induction false} MarkdownFilesAppend(dir: string, a: seq<string>, b: seq<string>)
    ensures MarkdownFilesIn(dir, a + b) == MarkdownFilesIn(dir, a) + MarkdownFilesIn(dir, b)
  {
    if |a| > 0 {
      assert (a + b)[1..] == a[1..] + b;
      MarkdownFilesAppend(dir, a[1..], b);
    } else {
      assert a + b == b;
    }
  }

  lemma {:induction false} MarkdownFilesInsert(dir: string, x: string, ys: seq<string>)
    ensures multiset(MarkdownFilesIn(dir, InsertBy(x, ys, Id))) == multiset(MarkdownFilesIn(dir, [x] + ys))
  {
    if |ys| > 0 && !LessEq(Id(x), Id(ys[0])) {
      var t := InsertBy(x, ys[1..], Id);
      MarkdownFilesInsert(dir, x, ys[1..]);
      MarkdownFilesAppend(dir, [ys[0]], t);
      MarkdownFilesAppend(dir, [ys[0]], ys[1..]);
      MarkdownFilesAppend(dir, [x], ys[1..]);
      MarkdownFilesAppend(dir, [x], ys);
      assert ys == [ys[0]] + ys[1..];
    }
  }

  /** Sorting the names only permutes the Markdown paths drawn from them. */
  lemma {:induction false} MarkdownFilesSort(dir: string, names: seq<string>)
    ensures multiset(MarkdownFilesIn(dir, Sort(names))) == multiset(MarkdownFilesIn(dir, names))
  {
    if |names| > 0 {
      var x, rest := names[0], names[1..];
      var sortedTail := Sort(rest);
      assert Sort(names) == InsertBy(x, sortedTail, Id);
      assert names == [x] + rest;
      MarkdownFilesSort(dir, rest);
      MarkdownFilesInsert(dir, x, sortedTail);
      MarkdownFilesAppend(dir, [x], sortedTail);
      MarkdownFilesAppend(dir, [x], rest);
      var head := MarkdownFilesIn(dir, [x]);
      calc {
        multiset(MarkdownFilesIn(dir, Sort(names)));
        multiset(MarkdownFilesIn(dir, [x] + sortedTail));
        multiset(head + MarkdownFilesIn(dir, sortedTail));
        multiset(head) + multiset(MarkdownFilesIn(dir, sortedTail));
        multiset(head) + multiset(MarkdownFilesIn(dir, rest));
        multiset(head + MarkdownFilesIn(dir, rest));
        multiset(MarkdownFilesIn(dir, names));
      }
    }
  }

  /** The results of `f` on each of `xs`, concatenated in order. */
  function FlatMap<T>(xs: seq<T>, f: T -> seq<string>): seq<string>
  {
    if |xs| == 0 then [] else f(xs[0]) + FlatMap(xs[1..], f)
  }

  lemma {:induction false} FlatMapAppend<T>(a: seq<T>, b: seq<T>, f: T -> seq<string>)
    ensures FlatMap(a + b, f) == FlatMap(a, f) + FlatMap(b, f)
  {
    if |a| > 0 {
      assert (a + b)[0] == a[0] && (a + b)[1..] == a[1..] + b;
      FlatMapAppend(a[1..], b, f);
      AppendAssociative(f(a[0]), FlatMap(a[1..], f), FlatMap(b, f));
    } else {
      assert a + b == b;
    }
  }

  /** Taking the first element off one side and its copy at `k` off the other keeps two permutations equal. */
  lemma RemoveMatching<T>(a: seq<T>, b: seq<T>, k: int)
    requires multiset(a) == multiset(b) && |a| > 0
    requires 0 <= k < |b| && b[k] == a[0]
    ensures b == b[..k] + ([a[0]] + b[k + 1..])
    ensures multiset(a[1..]) == multiset(b[..k] + b[k + 1..])
  {
    var x, front, back := a[0], b[..k], b[k + 1..];
    assert b == front + [x] + back;
    assert b == front + ([x] + back);
    assert a == [x] + a[1..];
    calc {
      multiset(a[1..]);
      multiset(a) - multiset{x};
      multiset(b) - multiset{x};
      (multiset(front) + multiset{x} + multiset(back)) - multiset{x};
      multiset(front) + multiset(back);
      multiset(front + back);
    }
  }

  /** Moving a block from the front into the middle keeps the elements. */
  lemma MoveBlock(p: seq<string>, q: seq<string>, r: seq<string>, s: seq<string>)
    requires multiset(s) == multiset(q + r)
    ensures multiset(p + s) == multiset(q + (p + r))
  {
  }

  /** Reordering the inputs only reorders the concatenated results. */
  lemma {:induction false} FlatMapPermutation<T>(a: seq<T>, b: seq<T>, f: T -> seq<string>)
    requires multiset(a) == multiset(b)
    ensures multiset(FlatMap(a, f)) == multiset(FlatMap(b, f))
    decreases |a|
  {
    if |a| == 0 {
      assert |b| == |multiset(b)| == 0;
    } else {
      var x := a[0];
      assert x in multiset(b);
      var k :| 0 <= k < |b| && b[k] == x;
      var front, back := b[..k], b[k + 1..];
      RemoveMatching(a, b, k);
      FlatMapPermutation(a[1..], front + back, f);
      FlatMapAround(front, x, back, f);
      assert FlatMap(a, f) == f(x) + FlatMap(a[1..], f);
      MoveBlock(f(x), FlatMap(front, f), FlatMap(back, f), FlatMap(a[1..], f));
    }
  }

  lemma FlatMapAround<T>(front: seq<T>, x: T, back: seq<T>, f: T -> seq<string>)
    ensures FlatMap(front + ([x] + back), f) == FlatMap(front, f) + (f(x) + FlatMap(back, f))
    ensures FlatMap(front + back, f) == FlatMap(front, f) + FlatMap(back, f)
  {
    FlatMapAppend(front, back, f);
    FlatMapAppend(front, [x] + back, f);
    assert ([x] + back)[1..] == back;
  }

  /** The walk below one subfolder of a folder reached as `root`. */
  function Walk(root: string): Folder -> seq<string>
  {
    (sub: Folder) => CollectMdFiles(JoinPath(root, sub.name), sub)
  }

  /** Visiting subfolders is the concatenating map of the walk below each. */
  lemma {:induction false} SubfoldersFlat(root: string, subs: seq<Folder>, parent: Folder)
    requires Within(subs, parent)
    ensures CollectSubfolders(root, subs, parent) == FlatMap(subs, Walk(root))
  {
    if |subs| > 0 {
      WithinTail(subs, parent);
      SubfoldersFlat(root, subs[1..], parent);
    }
  }

  /** Visiting the subfolders in name order only permutes what the walk finds. */
  lemma SubfoldersSort(root: string, subs: seq<Folder>, parent: Folder)
    requires Within(subs, parent)
    ensures Within(SortBy(subs, NameOf), parent)
    ensures multiset(CollectSubfolders(root, SortBy(subs, NameOf), parent))
         == multiset(CollectSubfolders(root, subs, parent))
  {
    var sorted := SortBy(subs, NameOf);
    SubfoldersFlat(root, subs, parent);
    SubfoldersFlat(root, sorted, parent);
    FlatMapPermutation(sorted, subs, Walk(root));
  }

  /**
   Completeness: the walk returns every Markdown entry of the tree, each as
   `root` joined with its folder names and its own name, exactly as often as
   it is listed, and nothing else.
   */
  lemma {:induction false} CollectComplete(root: string, folder: Folder)
    ensures multiset(CollectMdFiles(root, folder)) == MdPaths(root, folder)
    decreases folder, 1
  {
    MarkdownFilesSort(root, folder.files);
    SubfoldersSort(root, folder.subfolders, folder);
    SubfoldersComplete(root, folder.subfolders, folder);
  }

  lemma {:induction false} SubfoldersComplete(root: string, subs: seq<Folder>, parent: Folder)
    requires Within(subs, parent)
    ensures multiset(CollectSubfolders(root, subs, parent)) == MdPathsBelow(root, subs, parent)
    decreases parent, 0, |subs|
  {
    if |subs| > 0 {
      WithinTail(subs, parent);
      CollectComplete(JoinPath(root, subs[0].name), subs[0]);
      SubfoldersComplete(root, subs[1..], parent);
    }
  }

  /** `g` applied to each element of `xs`, in order. */
  function MapSeq<T, U>(xs: seq<T>, g: T -> U): (r: seq<U>)
    ensures |r| == |xs|
    ensures forall i :: 0 <= i < |xs| ==> r[i] == g(xs[i])
  {
    seq(|xs|, i requires 0 <= i < |xs| => g(xs[i]))
  }

  lemma MapSeqAround<T, U>(front: seq<T>, x: T, back: seq<T>, g: T -> U)
    ensures MapSeq(front + ([x] + back), g) == MapSeq(front, g) + ([g(x)] + MapSeq(back, g))
    ensures MapSeq(front + back, g) == MapSeq(front, g) + MapSeq(back, g)
  {
  }

  /** Mapping a permutation gives a permutation of the images. */
  lemma {:induction false} MapSeqPermutation<T, U>(a: seq<T>, b: seq<T>, g: T -> U)
    requires multiset(a) == multiset(b)
    ensures multiset(MapSeq(a, g)) == multiset(MapSeq(b, g))
    decreases |a|
  {
    if |a| == 0 {
      assert |b| == |multiset(b)| == 0;
    } else {
      var x := a[0];
      assert x in multiset(b);
      var k :| 0 <= k < |b| && b[k] == x;
      var front, back := b[..k], b[k + 1..];
      RemoveMatching(a, b, k);
      MapSeqPermutation(a[1..], front + back, g);
      MapSeqAround(front, x, back, g);
      assert MapSeq(a, g) == [g(x)] + MapSeq(a[1..], g);
    }
  }

  /** Concatenating results that agree position by position gives the same text. */
  lemma {:induction false} FlatMapPointwise<T>(xs: seq<T>, ys: seq<T>, f: T -> seq<string>)
    requires |xs| == |ys|
    requires forall i :: 0 <= i < |xs| ==> f(xs[i]) == f(ys[i])
    ensures FlatMap(xs, f) == FlatMap(ys, f)
  {
    if |xs| > 0 {
      assert forall i :: 0 <= i < |xs| - 1 ==> xs[1..][i] == xs[i + 1] && ys[1..][i] == ys[i + 1];
      FlatMapPointwise(xs[1..], ys[1..], f);
    }
  }

  /**
   The same tree with every folder's listing put in order: files by name,
   subfolders by name, all the way down. Two trees with equal canonical forms
   differ only in the order in which their folders list their entries.
   */
  function Canon(f: Folder): (c: Folder)
    ensures c.name == f.name
    ensures multiset(c.files) == multiset(f.files)
    ensures |c.subfolders| == |f.subfolders|
    decreases f
  {
    Folder(f.name, Sort(f.files), SortBy(seq(|f.subfolders|, i requires 0 <= i < |f.subfolders| => Canon(f.subfolders[i])), NameOf))
  }

  /** The subfolders of `f`, each in canonical form, before they are put in name order. */
  lemma CanonSubfolders(f: Folder)
    ensures multiset(Canon(f).subfolders) == multiset(MapSeq(f.subfolders, Canon))
    ensures SortedBy(Canon(f).subfolders, NameOf)
  {
    assert seq(|f.subfolders|, i requires 0 <= i < |f.subfolders| => Canon(f.subfolders[i])) == MapSeq(f.subfolders, Canon);
  }

  /** Sibling folders have distinct names, in every folder of the tree, as on any filesystem. */
  ghost predicate NamesDistinct(f: Folder)
    decreases f
  {
    && KeysDistinct(f.subfolders, NameOf)
    && forall i :: 0 <= i < |f.subfolders| ==> NamesDistinct(f.subfolders[i])
  }

  /** A map that keeps names keeps distinct sibling names distinct. */
  lemma MapNamesDistinct(subs: seq<Folder>, others: seq<Folder>, g: Folder -> Folder)
    requires forall x :: NameOf(g(x)) == NameOf(x)
    requires KeysDistinct(subs, NameOf)
    requires multiset(others) == multiset(MapSeq(subs, g))
    ensures KeysDistinct(others, NameOf)
  {
    var images := MapSeq(subs, g);
    forall x, y | x in others && y in others && NameOf(x) == NameOf(y)
      ensures x == y
    {
      assert x in multiset(images) && y in multiset(images);
      var i :| 0 <= i < |images| && images[i] == x;
      var j :| 0 <= j < |images| && images[j] == y;
      assert subs[i] in subs && subs[j] in subs;
    }
  }

  /** Mapping a name-sorted sequence to canonical forms keeps it name-sorted. */
  lemma CanonKeepsOrder(subs: seq<Folder>)
    requires SortedBy(subs, NameOf)
    ensures SortedBy(MapSeq(subs, Canon), NameOf)
  {
    var images := MapSeq(subs, Canon);
    forall i, j | 0 <= i < j < |images|
      ensures LessEq(NameOf(images[i]), NameOf(images[j]))
    {
      assert NameOf(images[i]) == NameOf(subs[i]) && NameOf(images[j]) == NameOf(subs[j]);
    }
  }

  /**
   The walk sorts every listing itself, so it returns the same list for a tree
   as for its canonical form.
   */
  lemma {:induction false} CollectCanon(root: string, f: Folder)
    requires NamesDistinct(f)
    ensures CollectMdFiles(root, Canon(f)) == CollectMdFiles(root, f)
    decreases f
  {
    var c := Canon(f);
    SortSorted(c.files);
    var subs := SortBy(f.subfolders, NameOf);
    var images := MapSeq(subs, Canon);
    CanonVisitOrder(f);
    forall i | 0 <= i < |subs|
      ensures Walk(root)(images[i]) == Walk(root)(subs[i])
    {
      assert subs[i] in multiset(f.subfolders);
      var j :| 0 <= j < |f.subfolders| && f.subfolders[j] == subs[i];
      CollectCanon(JoinPath(root, subs[i].name), f.subfolders[j]);
    }
    FlatMapPointwise(images, subs, Walk(root));
    SubfoldersSort(root, f.subfolders, f);
    SubfoldersSort(root, c.subfolders, c);
    SubfoldersFlat(root, subs, f);
    SubfoldersFlat(root, images, c);
  }

  /** The walk of a canonical form visits the canonical forms of the subfolders in name order. */
  lemma CanonVisitOrder(f: Folder)
    requires KeysDistinct(f.subfolders, NameOf)
    ensures SortBy(Canon(f).subfolders, NameOf) == MapSeq(SortBy(f.subfolders, NameOf), Canon)
  {
    var subs := SortBy(f.subfolders, NameOf);
    var images := MapSeq(subs, Canon);
    var visited := SortBy(Canon(f).subfolders, NameOf);
    CanonSubfolders(f);
    MapSeqPermutation(subs, f.subfolders, Canon);
    MapNamesDistinct(f.subfolders, images, Canon);
    CanonKeepsOrder(subs);
    SortedUnique(images, visited, NameOf);
  }

  /**
   Determinism: the walk does not depend on the order in which any folder of
   the tree lists its entries, given that sibling folders have distinct names.
   */
  lemma CollectIgnoresListingOrder(root: string, f1: Folder, f2: Folder)
    requires Canon(f1) == Canon(f2)
    requires NamesDistinct(f1) && NamesDistinct(f2)
    ensures CollectMdFiles(root, f1) == CollectMdFiles(root, f2)
  {
    CollectCanon(root, f1);
    CollectCanon(root, f2);
  }

  /**
   What equal canonical forms allow: a folder may list its files in any order
   and its subfolders in any order, each subfolder itself differing only in
   listing order, and the canonical form stays the same.
   */
  lemma CanonIgnoresOrder(name: string, files1: seq<string>, files2: seq<string>, subs1: seq<Folder>, subs2: seq<Folder>)
    requires multiset(files1) == multiset(files2)
    requires multiset(MapSeq(subs1, Canon)) == multiset(MapSeq(subs2, Canon))
    requires KeysDistinct(subs1, NameOf)
    ensures Canon(Folder(name, files1, subs1)) == Canon(Folder(name, files2, subs2))
  {
    var f1, f2 := Folder(name, files1, subs1), Folder(name, files2, subs2);
    SortDependsOnlyOnMultiset(files1, files2);
    CanonSubfolders(f1);
    CanonSubfolders(f2);
    MapNamesDistinct(subs1, Canon(f1).subfolders, Canon);
    SortedUnique(Canon(f1).subfolders, Canon(f2).subfolders, NameOf);
  }

  /** Every name is joined onto `dir` behind the same prefix when none starts with a slash. */
  lemma JoinRelative(dir: string, name: string)
    requires |name| == 0 || name[0] != '/'
    ensures JoinPath(dir, name) == (if |dir| == 0 || dir[|dir| - 1] == '/' then dir else dir + "/") + name
  {
  }

  /** Joining two relative names onto the same directory keeps their order. */
  lemma JoinMonotone(dir: string, a: string, b: string)
    requires LessEq(a, b)
    requires |a| == 0 || a[0] != '/'
    requires |b| == 0 || b[0] != '/'
    ensures LessEq(JoinPath(dir, a), JoinPath(dir, b))
  {
    var prefix := if |dir| == 0 || dir[|dir| - 1] == '/' then dir else dir + "/";
    var ja, jb := JoinPath(dir, a), JoinPath(dir, b);
    assert ja == prefix + a by { JoinRelative(dir, a); }
    assert jb == prefix + b by { JoinRelative(dir, b); }
    LessCommonPrefix(prefix, a, b);
  }

  /** A relative name no greater than every relative name of a list stays below everything joined from the list. */
  lemma {:induction false} MarkdownFilesLowerBound(dir: string, lo: string, names: seq<string>)
    requires |lo| == 0 || lo[0] != '/'
    requires forall i :: 0 <= i < |names| ==> LessEq(lo, names[i]) && (|names[i]| == 0 || names[i][0] != '/')
    ensures forall j :: 0 <= j < |MarkdownFilesIn(dir, names)| ==> LessEq(JoinPath(dir, lo), MarkdownFilesIn(dir, names)[j])
  {
    if |names| > 0 {
      var tail := names[1..];
      assert forall i :: 0 <= i < |tail| ==> tail[i] == names[i + 1];
      MarkdownFilesLowerBound(dir, lo, tail);
      JoinMonotone(dir, lo, names[0]);
    }
  }

  /** Joining relative names onto one directory keeps their order. */
  lemma {:induction false} MarkdownFilesKeepOrder(dir: string, names: seq<string>)
    requires Sorted(names)
    requires forall i :: 0 <= i < |names| ==> |names[i]| == 0 || names[i][0] != '/'
    ensures Sorted(MarkdownFilesIn(dir, names))
  {
    if |names| > 0 {
      var tail := names[1..];
      SortedTail(names, Id);
      MarkdownFilesKeepOrder(dir, tail);
      if IsMarkdownPath(names[0]) {
        forall i | 0 <= i < |tail|
          ensures LessEq(names[0], tail[i]) && (|tail[i]| == 0 || tail[i][0] != '/')
        {
          assert tail[i] == names[i + 1];
          assert LessEq(Id(names[0]), Id(names[i + 1]));
        }
        MarkdownFilesLowerBound(dir, names[0], tail);
        SortedCons(JoinPath(dir, names[0]), MarkdownFilesIn(dir, tail), Id);
      }
    }
  }

  /**
   Local order: the walk starts with the folder's own Markdown files in
   ascending code-point order; everything found in subfolders comes after them.
   */
  lemma OwnFilesFirstAndSorted(root: string, folder: Folder)
    requires forall i :: 0 <= i < |folder.files| ==> |folder.files[i]| == 0 || folder.files[i][0] != '/'
    ensures var own := MarkdownFilesIn(root, Sort(folder.files));
      && CollectMdFiles(root, folder)[..|own|] == own
      && Sorted(own)
      && multiset(own) == multiset(MarkdownFilesIn(root, folder.files))
  {
    var sorted := Sort(folder.files);
    forall i | 0 <= i < |sorted|
      ensures |sorted[i]| == 0 || sorted[i][0] != '/'
    {
      assert sorted[i] in multiset(folder.files);
    }
    MarkdownFilesKeepOrder(root, sorted);
    MarkdownFilesSort(root, folder.files);
  }

  /**
   The walk is ordered folder by folder, not globally: a folder's own files
   come first, then each subfolder's, so "docs/sub/c.md" follows "docs/z.md"
   although it sorts before it.
   */
  lemma SubfolderAfterOwnFiles()
    ensures CollectMdFiles("docs", Folder("docs", ["z.md", "a.md"], [Folder("sub", ["c.md"], [])]))
         == ["docs/a.md", "docs/z.md", "docs/sub/c.md"]
  {
    var sub := Folder("sub", ["c.md"], []);
    var top := Folder("docs", ["z.md", "a.md"], [sub]);
    DocsOwnFiles();
    assert SortBy([sub], NameOf) == [sub];
    DocsSubfolder(top);
  }

  /** The top folder's own files, put in name order. */
  lemma DocsOwnFiles()
    ensures MarkdownFilesIn("docs", Sort(["z.md", "a.md"])) == ["docs/a.md", "docs/z.md"]
  {
    SortTwoNames();
    MarkdownName("a.md");
    MarkdownName("z.md");
    assert ["a.md", "z.md"][1..] == ["z.md"];
    assert JoinPath("docs", "a.md") == "docs/a.md";
    assert JoinPath("docs", "z.md") == "docs/z.md";
  }

  lemma SortTwoNames()
    ensures Sort(["z.md", "a.md"]) == ["a.md", "z.md"]
  {
    assert ["z.md", "a.md"][1..] == ["a.md"];
    assert SortBy(["a.md"], Id) == ["a.md"];
    assert !LessEq("z.md", "a.md");
    assert InsertBy("z.md", ["a.md"], Id) == ["a.md"] + InsertBy("z.md", [], Id);
  }

  /** A one-letter name with the ".md" suffix passes the test. */
  lemma MarkdownName(name: string)
    requires |name| == 4 && name[1..] == ".md"
    ensures IsMarkdownPath(name)
  {
    MarkdownPathChars(name);
    assert name[1] == '.' && name[2] == 'm' && name[3] == 'd';
  }

  /** The walk below the one subfolder. */
  lemma DocsSubfolder(top: Folder)
    requires top.subfolders == [Folder("sub", ["c.md"], [])]
    ensures CollectSubfolders("docs", top.subfolders, top) == ["docs/sub/c.md"]
  {
    var sub := Folder("sub", ["c.md"], []);
    assert JoinPath("docs", "sub") == "docs/sub";
    assert Sort(["c.md"]) == ["c.md"];
    MarkdownName("c.md");
    assert JoinPath("docs/sub", "c.md") == "docs/sub/c.md";
    assert ["c.md"][1..] == [];
    assert MarkdownFilesIn("docs/sub", ["c.md"]) == ["docs/sub/c.md"];
    assert SortBy(sub.subfolders, NameOf) == [];
    assert CollectMdFiles("docs/sub", sub) == ["docs/sub/c.md"] + [];
  }
}

=== FILE: config.dfy ===
/**
 The configuration tree of `MergerConfig`: hard-coded defaults, a deep merge
 of an override document over them, and dotted-path lookup. The class's
 in-place mutation of its `config` dictionary is modelled as pure functions
 returning new trees.
 */
module Config {
  import opened Strings

  /** A parsed YAML/JSON value. Floating-point numbers, dates, sets and binary values are not modelled. */
  datatype Value =
    | Null
    | Bool(b: bool)
    | Int(i: int)
    | Str(s: string)
    | List(items: seq<Value>)
    | Mapping(entries: map<string, Value>)

  const Sections: set<string> := {"output", "processing", "separators", "filters"}

  /** `_load_default_config()`: four sections, each a mapping of leaves. */
  function DefaultConfig(): (c: Value)
    ensures c.Mapping? && c.entries.Keys == Sections
    ensures forall k :: k in c.entries ==> c.entries[k].Mapping?
  {
    Mapping(map[
      "output" := Mapping(OutputDefaults()),
      "processing" := Mapping(ProcessingDefaults()),
      "separators" := Mapping(SeparatorDefaults()),
      "filters" := Mapping(FilterDefaults())])
  }

  function OutputDefaults(): map<string, Value>
  {
    map[
      "encoding" := Str("utf-8"),
      "line_ending" := Str("\n"),
      "add_toc" := Bool(false),
      "add_timestamps" := Bool(false)]
  }

  function ProcessingDefaults(): map<string, Value>
  {
    map[
      "skip_empty_files" := Bool(true),
      "normalize_line_endings" := Bool(true),
      "remove_duplicate_headers" := Bool(false)]
  }

  function SeparatorDefaults(): map<string, Value>
  {
    map[
      "between_files" := Str("---"),
      "add_file_headers" := Bool(true),
      "header_format" := Str("<!-- Quelle: {filepath} -->")]
  }

  function FilterDefaults(): map<string, Value>
  {
    map[
      "exclude_patterns" := List([Str(".git"), Str("__pycache__"), Str(".DS_Store")]),
      "include_only" := List([Str(".md")]),
      "max_file_size_mb" := Int(10)]
  }

  /**
   `_deep_merge(base, update)`, returning the merged mapping: for each key of
   the update, two mappings merge recursively and anything else replaces the
   base value; keys only in the base are kept.
   */
  function DeepMerge(base: map<string, Value>, update: map<string, Value>): (r: map<string, Value>)
    ensures r.Keys == base.Keys + update.Keys
    ensures forall k :: k in base && k !in update ==> r[k] == base[k]
    ensures forall k :: k in update && !(k in base && base[k].Mapping? && update[k].Mapping?) ==> r[k] == update[k]
    ensures forall k :: k in update && k in base && base[k].Mapping? && update[k].Mapping? ==>
      r[k] == Mapping(DeepMerge(base[k].entries, update[k].entries))
    decreases Mapping(update)
  {
    map k | k in base.Keys + update.Keys ::
      if k !in update then base[k]
      else if k in base && base[k].Mapping? && update[k].Mapping? then
        Mapping(DeepMerge(base[k].entries, update[k].entries))
      else update[k]
  }

  /** An empty override changes nothing. */
  lemma MergeEmptyOverride(base: map<string, Value>)
    ensures DeepMerge(base, map[]) == base
  {
  }

  /** Merging a tree over itself gives the same tree. */
  lemma {:induction false} MergeSelf(base: map<string, Value>)
    ensures DeepMerge(base, base) == base
    decreases Mapping(base)
  {
    var r := DeepMerge(base, base);
    forall k | k in base
      ensures r[k] == base[k]
    {
      if base[k].Mapping? {
        MergeSelf(base[k].entries);
      }
    }
  }

  /** Applying the same override twice is the same as applying it once. */
  lemma {:induction false} MergeIdempotent(base: map<string, Value>, update: map<string, Value>)
    ensures DeepMerge(DeepMerge(base, update), update) == DeepMerge(base, update)
    decreases Mapping(update)
  {
    var once := DeepMerge(base, update);
    var twice := DeepMerge(once, update);
    forall k | k in once
      ensures twice[k] == once[k]
    {
      if k in update && update[k].Mapping? {
        if k in base && base[k].Mapping? {
          MergeIdempotent(base[k].entries, update[k].entries);
        } else {
          MergeSelf(update[k].entries);
        }
      }
    }
  }

  /** `get`'s descent along already split key segments. */
  function GetPath(v: Value, keys: seq<string>, default: Value): (r: Value)
    ensures !Resolves(v, keys) ==> r == default
  {
    if |keys| == 0 then v
    else if v.Mapping? && keys[0] in v.entries then GetPath(v.entries[keys[0]], keys[1..], default)
    else default
  }

  /** `MergerConfig.get(key, default)`: split the key on dots and descend. */
  function Get(config: Value, key: string, default: Value): (r: Value)
    ensures '.' !in key ==>
      r == if config.Mapping? && key in config.entries then config.entries[key] else default
  {
    if '.' !in key then
      SplitNoSeparator(key, '.');
      var keys := [key];
      assert keys[0] == key && keys[1..] == [];
      assert config.Mapping? && key in config.entries ==> GetPath(config, keys, default) == GetPath(config.entries[key], [], default);
      GetPath(config, keys, default)
    else
      GetPath(config, Split(key, '.'), default)
  }

  /** Every segment of `keys` names an entry of a mapping met on the way down. */
  predicate Resolves(v: Value, keys: seq<string>)
  {
    |keys| == 0 || (v.Mapping? && keys[0] in v.entries && Resolves(v.entries[keys[0]], keys[1..]))
  }

  /**
   `get` falls back to the default exactly when the path does not resolve: a
   resolving path returns the stored value whatever the default, and any other
   path returns the default.
   */
  lemma {:induction false} GetFallback(v: Value, keys: seq<string>, d1: Value, d2: Value)
    ensures Resolves(v, keys) ==> GetPath(v, keys, d1) == GetPath(v, keys, d2)
    ensures !Resolves(v, keys) ==> GetPath(v, keys, d1) == d1
  {
    if |keys| > 0 && v.Mapping? && keys[0] in v.entries {
      GetFallback(v.entries[keys[0]], keys[1..], d1, d2);
    }
  }

  /** A resolving prefix returns the subtree it leads to, and the rest of the path continues from there. */
  lemma {:induction false} GetPathPrefix(v: Value, prefix: seq<string>, rest: seq<string>, default: Value)
    requires Resolves(v, prefix)
    ensures GetPath(v, prefix + rest, default) == GetPath(GetPath(v, prefix, default), rest, default)
  {
    if |prefix| > 0 {
      assert (prefix + rest)[0] == prefix[0];
      assert (prefix + rest)[1..] == prefix[1..] + rest;
      GetPathPrefix(v.entries[prefix[0]], prefix[1..], rest, default);
    } else {
      assert prefix + rest == rest;
    }
  }

  /** A dotted key made of dot-free segments is looked up segment by segment. */
  lemma GetDotted(config: Value, segments: seq<string>, default: Value)
    requires |segments| >= 1
    requires forall i :: 0 <= i < |segments| ==> '.' !in segments[i]
    ensures Get(config, Join(segments, '.'), default) == GetPath(config, segments, default)
  {
    SplitJoin(segments, '.');
  }

  /** The override document `{k0: {k1: ... leaf}}` that sets one path. */
  function Nest(keys: seq<string>, leaf: Value): (r: Value)
    ensures |keys| > 0 ==> r.Mapping? && r.entries.Keys == {keys[0]}
  {
    if |keys| == 0 then leaf else Mapping(map[keys[0] := Nest(keys[1..], leaf)])
  }

  /** Merging into an empty tree yields the override itself. */
  lemma MergeIntoEmpty(update: map<string, Value>)
    ensures DeepMerge(map[], update) == update
  {
  }

  /** Descending one level: a first key present in a mapping leads to the rest of the path from its value. */
  lemma GetPathStep(entries: map<string, Value>, keys: seq<string>, default: Value)
    requires |keys| > 0 && keys[0] in entries
    ensures GetPath(Mapping(entries), keys, default) == GetPath(entries[keys[0]], keys[1..], default)
  {
  }

  /** The mapping found under `k`, or an empty one when there is none. */
  function Below(base: map<string, Value>, k: string): map<string, Value>
  {
    if k in base && base[k].Mapping? then base[k].entries else map[]
  }

  /** Merging a nested override descends into the first key's subtree, or starts an empty one. */
  lemma MergeNestStep(base: map<string, Value>, keys: seq<string>, leaf: Value)
    requires |keys| > 1
    ensures keys[0] in DeepMerge(base, Nest(keys, leaf).entries)
    ensures DeepMerge(base, Nest(keys, leaf).entries)[keys[0]]
         == Mapping(DeepMerge(Below(base, keys[0]), Nest(keys[1..], leaf).entries))
  {
    var k := keys[0];
    assert Nest(keys, leaf).entries[k] == Nest(keys[1..], leaf);
    if !(k in base && base[k].Mapping?) {
      MergeIntoEmpty(Nest(keys[1..], leaf).entries);
    }
  }

  /**
   Overriding one path with a non-mapping leaf makes `get` of that path return
   the leaf. (A mapping leaf is merged into what is already there instead.)
   */
  lemma {:induction false} OverrideSetsPath(base: map<string, Value>, keys: seq<string>, leaf: Value, default: Value)
    requires |keys| > 0 && !leaf.Mapping?
    ensures GetPath(Mapping(DeepMerge(base, Nest(keys, leaf).entries)), keys, default) == leaf
    decreases |keys|
  {
    var merged := DeepMerge(base, Nest(keys, leaf).entries);
    assert Nest(keys, leaf).entries[keys[0]] == Nest(keys[1..], leaf);
    GetPathStep(merged, keys, default);
    if |keys| > 1 {
      MergeNestStep(base, keys, leaf);
      OverrideSetsPath(Below(base, keys[0]), keys[1..], leaf, default);
    }
  }

  /** An override confined to other top-level keys does not affect a lookup under `key`. */
  lemma OverrideElsewhere(base: map<string, Value>, update: map<string, Value>, other: seq<string>, default: Value)
    requires |other| > 0 && other[0] !in update
    ensures GetPath(Mapping(DeepMerge(base, update)), other, default) == GetPath(Mapping(base), other, default)
  {
    if other[0] in base {
      GetPathStep(DeepMerge(base, update), other, default);
      GetPathStep(base, other, default);
    }
  }

  /**
   Overriding one path leaves every diverging path as it was: a lookup that
   leaves the overridden path at segment `j` sees the base configuration.
   */
  lemma {:induction false} OverrideKeepsOtherPaths(
    base: map<string, Value>, keys: seq<string>, leaf: Value, other: seq<string>, j: nat, default: Value)
    requires j < |keys| && j < |other|
    requires keys[..j] == other[..j] && keys[j] != other[j]
    ensures GetPath(Mapping(DeepMerge(base, Nest(keys, leaf).entries)), other, default)
         == GetPath(Mapping(base), other, default)
    decreases j
  {
    if j == 0 {
      OverrideElsewhere(base, Nest(keys, leaf).entries, other, default);
    } else {
      var k := keys[0];
      assert other[0] == k by {
        assert other[0] == other[..j][0];
        assert keys[0] == keys[..j][0];
      }
      assert keys[1..][..j - 1] == other[1..][..j - 1] by {
        assert keys[1..][..j - 1] == keys[..j][1..];
        assert other[1..][..j - 1] == other[..j][1..];
      }
      var sub := DeepMerge(Below(base, k), Nest(keys[1..], leaf).entries);
      OverrideKeepsOtherPaths(Below(base, k), keys[1..], leaf, other[1..], j - 1, default);
      MergeNestStep(base, keys, leaf);
      GetPathStep(DeepMerge(base, Nest(keys, leaf).entries), other, default);
      assert GetPath(Mapping(Below(base, k)), other[1..], default) == GetPath(Mapping(base), other, default) by {
        if k in base {
          GetPathStep(base, other, default);
        }
      }
    }
  }

  /**
   An override leaves `path` alone when, following the path through the
   override, a segment is missing before the path ends; every segment before
   that one names a nested mapping of the override.
   */
  predicate Untouched(update: map<string, Value>, path: seq<string>)
    decreases |path|
  {
    |path| > 0 && (path[0] !in update || (update[path[0]].Mapping? && Untouched(update[path[0]].entries, path[1..])))
  }

  /** A path the override leaves alone does not resolve in the override. */
  lemma {:induction false} UntouchedUnresolved(update: map<string, Value>, path: seq<string>)
    requires Untouched(update, path)
    ensures !Resolves(Mapping(update), path)
    decreases |path|
  {
    if path[0] in update {
      UntouchedUnresolved(update[path[0]].entries, path[1..]);
    }
  }

  /**
   Siblings survive a deep merge: whatever the override holds, a lookup along
   a path it leaves alone sees the base configuration.
   */
  lemma {:induction false} MergeKeepsUntouched(
    base: map<string, Value>, update: map<string, Value>, path: seq<string>, default: Value)
    requires Untouched(update, path)
    ensures GetPath(Mapping(DeepMerge(base, update)), path, default) == GetPath(Mapping(base), path, default)
    decreases |path|
  {
    var k := path[0];
    if k !in update {
      OverrideElsewhere(base, update, path, default);
    } else {
      var merged := DeepMerge(base, update);
      var sub := update[k].entries;
      GetPathStep(merged, path, default);
      if !(k in base && base[k].Mapping?) {
        MergeIntoEmpty(sub);
      }
      assert merged[k] == Mapping(DeepMerge(Below(base, k), sub));
      MergeKeepsUntouched(Below(base, k), sub, path[1..], default);
      assert GetPath(Mapping(Below(base, k)), path[1..], default) == GetPath(Mapping(base), path, default) by {
        if k in base {
          GetPathStep(base, path, default);
        }
      }
    }
  }

  /**
   A path that leads through the override to a non-mapping value reads that
   value after the merge, whatever the base held there.
   */
  lemma {:induction false} MergeReadsOverride(
    base: map<string, Value>, update: map<string, Value>, path: seq<string>, default: Value)
    requires |path| > 0 && Resolves(Mapping(update), path)
    requires !GetPath(Mapping(update), path, default).Mapping?
    ensures GetPath(Mapping(DeepMerge(base, update)), path, default) == GetPath(Mapping(update), path, default)
    decreases |path|
  {
    var k := path[0];
    var merged := DeepMerge(base, update);
    GetPathStep(merged, path, default);
    GetPathStep(update, path, default);
    if |path| > 1 && k in base && base[k].Mapping? && update[k].Mapping? {
      GetPathStep(update[k].entries, path[1..], default);
      MergeReadsOverride(base[k].entries, update[k].entries, path[1..], default);
    }
  }

  /** The suffix test that picks the parser; it is case-sensitive. */
  datatype Format = Yaml | Json | Unsupported

  function FormatOf(path: string): (f: Format)
    ensures f != Unsupported ==> |path| >= 4 && '.' in path
  {
    if EndsWith(path, ".yaml") then
      assert path[|path| - 5] == path[|path| - 5..][0];
      Yaml
    else if EndsWith(path, ".yml") then
      assert path[|path| - 4] == path[|path| - 4..][0];
      Yaml
    else if EndsWith(path, ".json") then
      assert path[|path| - 5] == path[|path| - 5..][0];
      Json
    else Unsupported
  }

  /** The parser is chosen by the exact, case-sensitive suffix. */
  lemma FormatExamples()
    ensures FormatOf("merger.yaml") == Yaml && FormatOf("merger.yml") == Yaml
    ensures FormatOf("merger.json") == Json
    ensures FormatOf("merger.YAML") == Unsupported && FormatOf("merger.toml") == Unsupported
  {
    assert EndsWith("merger.yaml", ".yaml") && EndsWith("merger.yml", ".yml") && EndsWith("merger.json", ".json");
    assert !EndsWith("merger.YAML", ".yaml") && !EndsWith("merger.YAML", ".yml") && !EndsWith("merger.YAML", ".json");
    assert !EndsWith("merger.toml", ".yaml") && !EndsWith("merger.toml", ".yml") && !EndsWith("merger.toml", ".json");
  }

  /** What a parser made of the override file; an unreadable file is a failure too. */
  datatype Parsed = Parsed(value: Value) | ParseFailure

  /**
   `MergerConfig(config_file).config`: the defaults, deep-merged with the
   override file when one is named, has a supported suffix, parses, and holds
   a mapping at the top; in every other case the defaults unchanged.
   `yaml` and `json` stand for what `yaml.safe_load` and `json.load` would
   make of the file.
   */
  function LoadConfig(configFile: string, yaml: Parsed, json: Parsed): (c: Value)
    ensures c.Mapping? && Sections <= c.entries.Keys
    ensures FormatOf(configFile) == Unsupported ==> c == DefaultConfig()
    ensures c != DefaultConfig() ==>
      var parsed := if FormatOf(configFile) == Yaml then yaml else json;
      && configFile != ""
      && FormatOf(configFile) != Unsupported
      && parsed.Parsed? && parsed.value.Mapping?
      && c == Mapping(DeepMerge(DefaultConfig().entries, parsed.value.entries))
    ensures configFile != "" && FormatOf(configFile) == Yaml && yaml.Parsed? && yaml.value.Mapping? ==>
      c == Mapping(DeepMerge(DefaultConfig().entries, yaml.value.entries))
    ensures configFile != "" && FormatOf(configFile) == Json && json.Parsed? && json.value.Mapping? ==>
      c == Mapping(DeepMerge(DefaultConfig().entries, json.value.entries))
  {
    var defaults := DefaultConfig();
    if configFile == "" then defaults
    else
      var parsed := match FormatOf(configFile)
        case Yaml => yaml
        case Json => json
        case Unsupported => ParseFailure;
      if parsed.Parsed? && parsed.value.Mapping? then Mapping(DeepMerge(defaults.entries, parsed.value.entries))
      else defaults
  }

  /**
   A YAML override file that sets one path to a non-mapping leaf: after
   loading, `get` of that path returns the leaf.
   */
  lemma LoadedOverrideApplies(configFile: string, keys: seq<string>, leaf: Value, json: Parsed, default: Value)
    requires configFile != "" && FormatOf(configFile) == Yaml
    requires |keys| > 0 && !leaf.Mapping?
    ensures GetPath(LoadConfig(configFile, Parsed(Nest(keys, leaf)), json), keys, default) == leaf
  {
    OverrideSetsPath(DefaultConfig().entries, keys, leaf, default);
  }

  /** ... and every lookup that leaves that path at some segment still sees the defaults. */
  lemma LoadedOverrideKeepsDefaults(
    configFile: string, keys: seq<string>, leaf: Value, json: Parsed, other: seq<string>, j: nat, default: Value)
    requires configFile != "" && FormatOf(configFile) == Yaml
    requires |keys| > 0
    requires j < |keys| && j < |other|
    requires keys[..j] == other[..j] && keys[j] != other[j]
    ensures GetPath(LoadConfig(configFile, Parsed(Nest(keys, leaf)), json), other, default)
         == GetPath(DefaultConfig(), other, default)
  {
    OverrideKeepsOtherPaths(DefaultConfig().entries, keys, leaf, other, j, default);
  }

  /** The override used by `SeparatorOverride`: two of the three separator settings. */
  function SeparatorUpdate(): map<string, Value>
  {
    map["separators" := Mapping(map["between_files" := Str("***"), "add_file_headers" := Bool(false)])]
  }

  /**
   A YAML file overriding two of the separator settings changes those two and
   keeps the third separator setting and the other sections at their defaults.
   */
  lemma SeparatorOverride()
    ensures var c := LoadConfig("merger.yaml", Parsed(Mapping(SeparatorUpdate())), ParseFailure);
      && GetPath(c, ["separators", "between_files"], Null) == Str("***")
      && GetPath(c, ["separators", "add_file_headers"], Null) == Bool(false)
      && GetPath(c, ["separators", "header_format"], Null) == Str("<!-- Quelle: {filepath} -->")
      && GetPath(c, ["output", "encoding"], Null) == Str("utf-8")
  {
    assert EndsWith("merger.yaml", ".yaml");
    SeparatorUpdateReads();
    SeparatorUpdateKeeps();
  }

  /** The two settings the file names read as the file gives them. */
  lemma SeparatorUpdateReads()
    ensures var merged := Mapping(DeepMerge(DefaultConfig().entries, SeparatorUpdate()));
      && GetPath(merged, ["separators", "between_files"], Null) == Str("***")
      && GetPath(merged, ["separators", "add_file_headers"], Null) == Bool(false)
  {
    var u := SeparatorUpdate();
    var sep := u["separators"].entries;
    var p1, p2 := ["separators", "between_files"], ["separators", "add_file_headers"];
    assert p1[1..] == ["between_files"] && p2[1..] == ["add_file_headers"];
    GetPathStep(u, p1, Null);
    GetPathStep(sep, p1[1..], Null);
    MergeReadsOverride(DefaultConfig().entries, u, p1, Null);
    GetPathStep(u, p2, Null);
    GetPathStep(sep, p2[1..], Null);
    MergeReadsOverride(DefaultConfig().entries, u, p2, Null);
  }

  /** The settings the file does not name read as the defaults. */
  lemma SeparatorUpdateKeeps()
    ensures var merged := Mapping(DeepMerge(DefaultConfig().entries, SeparatorUpdate()));
      && GetPath(merged, ["separators", "header_format"], Null) == Str("<!-- Quelle: {filepath} -->")
      && GetPath(merged, ["output", "encoding"], Null) == Str("utf-8")
  {
    UntouchedSeparatorPaths();
    DefaultKeptValues();
    MergeKeepsUntouched(DefaultConfig().entries, SeparatorUpdate(), ["separators", "header_format"], Null);
    MergeKeepsUntouched(DefaultConfig().entries, SeparatorUpdate(), ["output", "encoding"], Null);
  }

  /** The file leaves `header_format` and the `output` section alone. */
  lemma UntouchedSeparatorPaths()
    ensures Untouched(SeparatorUpdate(), ["separators", "header_format"])
    ensures Untouched(SeparatorUpdate(), ["output", "encoding"])
  {
    var p1: seq<string> := ["separators", "header_format"];
    assert p1[1..] == ["header_format"];
  }

  /** The default values of the two settings the file leaves alone. */
  lemma DefaultKeptValues()
    ensures GetPath(Mapping(DefaultConfig().entries), ["separators", "header_format"], Null) == Str("<!-- Quelle: {filepath} -->")
    ensures GetPath(Mapping(DefaultConfig().entries), ["output", "encoding"], Null) == Str("utf-8")
  {
  }

  /*
   The examples below look keys up by their segments; `GetDotted` is what ties
   a dotted key such as "separators.between_files" to its segments.
   */

  /** By default the text between files is "---", and every file gets a header. */
  lemma DefaultSeparators()
    ensures GetPath(DefaultConfig(), ["separators", "between_files"], Null) == Str("---")
    ensures GetPath(DefaultConfig(), ["separators", "add_file_headers"], Null) == Bool(true)
  {
  }

  /** A key absent from an existing section yields the caller's default. */
  lemma DefaultMissingKey(default: Value)
    ensures GetPath(DefaultConfig(), ["separators", "missing"], default) == default
  {
  }
}

=== FILE: merge.dfy ===
/**
 The merge engine (`merge_markdown_files` with `read_markdown_file`): every
 readable, non-empty file becomes a header comment naming its path, its text,
 and a line terminator if the text lacks one; a separator may follow it. The
 output file is modelled as the text that would be written to it.
 */
module Merge {
  import opened Strings

  /** The text written after a file when separators are on and a later list entry exists. */
  const Separator: string := "\n---\n\n"

  /** The comment line naming a file's full path, followed by a blank line. */
  function Header(path: string): string
  {
    "<!-- Quelle: " + path + " -->\n\n"
  }

  /**
   `read_markdown_file(path)`: the file's text, or "" when it cannot be read
   (missing, undecodable, any other error); such a path is simply absent from
   `contents`. The text is taken after text mode's newline translation.
   */
  function ReadMarkdownFile(contents: map<string, string>, path: string): (text: string)
    ensures text != "" ==> path in contents && text == contents[path]
  {
    if path in contents then contents[path] else ""
  }

  /** The shortest extension of `content` that ends in a line terminator. */
  function EndWithNewline(content: string): (r: string)
    ensures |content| <= |r| <= |content| + 1
    ensures r[..|content|] == content
    ensures |r| > 0 && r[|r| - 1] == '\n'
    ensures |r| == |content| <==> EndsWith(content, "\n")
  {
    if EndsWith(content, "\n") then content else content + "\n"
  }

  /** Everything a non-empty file writes before any separator. */
  function Piece(path: string, content: string): string
  {
    Header(path) + EndWithNewline(content)
  }

  /** What one list entry writes; `more` says whether another entry follows it in the list. */
  function Contribution(path: string, content: string, addSeparators: bool, more: bool): (r: string)
    ensures r == "" <==> content == ""
  {
    if content == "" then ""
    else Piece(path, content) + (if addSeparators && more then Separator else "")
  }

  /**
   The text the loop of `merge_markdown_files(files, output, add_separators)`
   writes. Output is empty or ends on a line boundary (`MergeEmptyIff` says
   when it is empty).
   */
  function MergeDocument(files: seq<string>, contents: map<string, string>, addSeparators: bool): (out: string)
    ensures out == "" || out[|out| - 1] == '\n'
  {
    if |files| == 0 then ""
    else
      var rest := MergeDocument(files[1..], contents, addSeparators);
      Contribution(files[0], ReadMarkdownFile(contents, files[0]), addSeparators, |files| > 1) + rest
  }

  /**
   The write loop of `merge_markdown_files`, with the separator test on the
   list index as in the source; it writes exactly `MergeDocument`.
   */
  method MergeMarkdownFiles(files: seq<string>, contents: map<string, string>, addSeparators: bool)
    returns (output: string)
    ensures output == MergeDocument(files, contents, addSeparators)
  {
    output := "";
    for i := 0 to |files|
      invariant output + MergeDocument(files[i..], contents, addSeparators) == MergeDocument(files, contents, addSeparators)
    {
      var content := ReadMarkdownFile(contents, files[i]);
      var chunk := "";
      if content != "" {
        chunk := Header(files[i]) + content;
        if !EndsWith(content, "\n") {
          chunk := chunk + "\n";
        }
        if addSeparators && i < |files| - 1 {
          chunk := chunk + Separator;
        }
      }
      assert chunk == Contribution(files[i], content, addSeparators, i < |files| - 1) by {
        if content != "" {
          ContributionLayout(files[i], content, addSeparators, i < |files| - 1);
        }
      }
      MergeStep(files, contents, addSeparators, i);
      AppendAssociative(output, chunk, MergeDocument(files[i + 1..], contents, addSeparators));
      output := output + chunk;
    }
    assert files[|files|..] == [];
  }

  /** Peeling one list entry off the front of a suffix of the list. */
  lemma MergeStep(files: seq<string>, contents: map<string, string>, addSeparators: bool, i: nat)
    requires i < |files|
    ensures MergeDocument(files[i..], contents, addSeparators)
         == Contribution(files[i], ReadMarkdownFile(contents, files[i]), addSeparators, i < |files| - 1)
          + MergeDocument(files[i + 1..], contents, addSeparators)
  {
    assert files[i..][1..] == files[i + 1..];
    assert files[i..][0] == files[i];
    assert |files[i..]| > 1 <==> i < |files| - 1;
  }

  /** A non-empty file writes its header, its text, a terminator if needed, then possibly a separator. */
  lemma ContributionLayout(path: string, content: string, addSeparators: bool, more: bool)
    requires content != ""
    ensures Contribution(path, content, addSeparators, more)
         == Header(path) + content
          + (if EndsWith(content, "\n") then "" else "\n")
          + (if addSeparators && more then Separator else "")
  {
  }

  /** The listed files that have text, in list order. */
  function Present(files: seq<string>, contents: map<string, string>): seq<string>
  {
    if |files| == 0 then []
    else (if ReadMarkdownFile(contents, files[0]) != "" then [files[0]] else []) + Present(files[1..], contents)
  }

  /** `Present` keeps listed files with text, and is empty exactly when no listed file has text. */
  lemma {:induction false} PresentFacts(files: seq<string>, contents: map<string, string>)
    ensures forall p :: p in Present(files, contents) ==> p in files && ReadMarkdownFile(contents, p) != ""
    ensures |Present(files, contents)| == 0 <==> forall i :: 0 <= i < |files| ==> ReadMarkdownFile(contents, files[i]) == ""
  {
    if |files| > 0 {
      PresentFacts(files[1..], contents);
      assert forall i :: 1 <= i < |files| ==> files[i] == files[1..][i - 1];
    }
  }

  /** The output is empty exactly when no listed file has text. */
  lemma {:induction false} MergeEmptyIff(files: seq<string>, contents: map<string, string>, addSeparators: bool)
    ensures MergeDocument(files, contents, addSeparators) == ""
        <==> forall i :: 0 <= i < |files| ==> ReadMarkdownFile(contents, files[i]) == ""
  {
    if |files| > 0 {
      MergeEmptyIff(files[1..], contents, addSeparators);
      assert forall i :: 1 <= i < |files| ==> files[i] == files[1..][i - 1];
    }
  }

  /** Only the text of the listed files matters: two readings that agree on them give the same output. */
  lemma {:induction false} MergeUsesListedFiles(
    files: seq<string>, c1: map<string, string>, c2: map<string, string>, addSeparators: bool)
    requires forall i :: 0 <= i < |files| ==> ReadMarkdownFile(c1, files[i]) == ReadMarkdownFile(c2, files[i])
    ensures MergeDocument(files, c1, addSeparators) == MergeDocument(files, c2, addSeparators)
  {
    if |files| > 0 {
      assert forall i :: 0 <= i < |files[1..]| ==> files[1..][i] == files[i + 1];
      MergeUsesListedFiles(files[1..], c1, c2, addSeparators);
    }
  }

  /**
   What the inputs read as once `open(output, 'w')` has emptied the output
   file: the output path reads as "", every other path as before.
   */
  function Truncated(contents: map<string, string>, output: string): (r: map<string, string>)
    ensures ReadMarkdownFile(r, output) == ""
    ensures forall p :: p != output ==> ReadMarkdownFile(r, p) == ReadMarkdownFile(contents, p)
  {
    contents - {output}
  }

  /** Reference layout: the pieces of `paths` in order, with `glue` between consecutive pieces. */
  function Layout(paths: seq<string>, contents: map<string, string>, glue: string): string
  {
    if |paths| == 0 then ""
    else if |paths| == 1 then Piece(paths[0], ReadMarkdownFile(contents, paths[0]))
    else Piece(paths[0], ReadMarkdownFile(contents, paths[0])) + glue + Layout(paths[1..], contents, glue)
  }

  /** Whether the separator test on the list index leaves a separator after the last piece. */
  predicate TrailingSeparator(files: seq<string>, contents: map<string, string>, addSeparators: bool)
  {
    && addSeparators
    && |files| > 0
    && ReadMarkdownFile(contents, files[|files| - 1]) == ""
    && |Present(files, contents)| > 0
  }

  function Glue(addSeparators: bool): string
  {
    if addSeparators then Separator else ""
  }

  function Trail(files: seq<string>, contents: map<string, string>, addSeparators: bool): string
  {
    if TrailingSeparator(files, contents, addSeparators) then Separator else ""
  }

  /** The layout `MergeLayout` promises for `files`. */
  function Expected(files: seq<string>, contents: map<string, string>, addSeparators: bool): string
  {
    Layout(Present(files, contents), contents, Glue(addSeparators)) + Trail(files, contents, addSeparators)
  }

  /**
   The full layout of the output: the pieces of the files that have text, in
   list order, separated by `Separator` when separators are on and simply
   concatenated otherwise; skipped files leave no trace, except that when the
   last listed file is skipped, a separator still follows the last piece.
   */
  lemma {:induction false} MergeLayout(files: seq<string>, contents: map<string, string>, addSeparators: bool)
    ensures MergeDocument(files, contents, addSeparators)
         == Layout(Present(files, contents), contents, if addSeparators then Separator else "")
          + (if TrailingSeparator(files, contents, addSeparators) then Separator else "")
  {
    if |files| > 0 {
      MergeLayout(files[1..], contents, addSeparators);
      if ReadMarkdownFile(contents, files[0]) == "" {
        LayoutSkipped(files, contents, addSeparators);
      } else if |Present(files[1..], contents)| == 0 {
        LayoutLastPiece(files, contents, addSeparators);
      } else {
        LayoutMorePieces(files, contents, addSeparators);
      }
    }
  }

  /** Induction step when the first file is skipped. */
  lemma LayoutSkipped(files: seq<string>, contents: map<string, string>, addSeparators: bool)
    requires |files| > 0 && ReadMarkdownFile(contents, files[0]) == ""
    requires MergeDocument(files[1..], contents, addSeparators) == Expected(files[1..], contents, addSeparators)
    ensures MergeDocument(files, contents, addSeparators) == Expected(files, contents, addSeparators)
  {
    var rest := files[1..];
    assert MergeDocument(files, contents, addSeparators) == MergeDocument(rest, contents, addSeparators);
    assert Present(files, contents) == Present(rest, contents);
    if |rest| > 0 {
      assert rest[|rest| - 1] == files[|files| - 1];
    }
    assert Trail(files, contents, addSeparators) == Trail(rest, contents, addSeparators);
  }

  /** Induction step when the first file is the only one with text. */
  lemma LayoutLastPiece(files: seq<string>, contents: map<string, string>, addSeparators: bool)
    requires |files| > 0 && ReadMarkdownFile(contents, files[0]) != ""
    requires |Present(files[1..], contents)| == 0
    requires MergeDocument(files[1..], contents, addSeparators) == Expected(files[1..], contents, addSeparators)
    ensures MergeDocument(files, contents, addSeparators) == Expected(files, contents, addSeparators)
  {
    var f, rest := files[0], files[1..];
    var content := ReadMarkdownFile(contents, f);
    assert Present(files, contents) == [f];
    assert Layout([f], contents, Glue(addSeparators)) == Piece(f, content);
    assert MergeDocument(rest, contents, addSeparators) == "";
    if |rest| > 0 {
      PresentFacts(rest, contents);
      assert rest[|rest| - 1] == files[|files| - 1];
      assert ReadMarkdownFile(contents, rest[|rest| - 1]) == "";
    }
    var c := Contribution(f, content, addSeparators, |rest| > 0);
    assert MergeDocument(files, contents, addSeparators) == c + "";
    assert c == Piece(f, content) + Trail(files, contents, addSeparators);
  }

  /** Induction step when text follows the first file, which has text too. */
  lemma LayoutMorePieces(files: seq<string>, contents: map<string, string>, addSeparators: bool)
    requires |files| > 0 && ReadMarkdownFile(contents, files[0]) != ""
    requires |Present(files[1..], contents)| > 0
    requires MergeDocument(files[1..], contents, addSeparators) == Expected(files[1..], contents, addSeparators)
    ensures MergeDocument(files, contents, addSeparators) == Expected(files, contents, addSeparators)
  {
    var f, rest := files[0], files[1..];
    var content := ReadMarkdownFile(contents, f);
    var glue := Glue(addSeparators);
    var pr := Present(rest, contents);
    assert |rest| > 0;
    assert rest[|rest| - 1] == files[|files| - 1];
    assert Present(files, contents) == [f] + pr;
    assert ([f] + pr)[1..] == pr;
    assert Layout([f] + pr, contents, glue) == Piece(f, content) + glue + Layout(pr, contents, glue);
    assert Trail(files, contents, addSeparators) == Trail(rest, contents, addSeparators);
    var c := Contribution(f, content, addSeparators, true);
    assert c == Piece(f, content) + glue;
    assert MergeDocument(files, contents, addSeparators) == c + MergeDocument(rest, contents, addSeparators);
    AppendAssociative(c, Layout(pr, contents, glue), Trail(rest, contents, addSeparators));
  }

  lemma {:induction false} PresentAppend(a: seq<string>, b: seq<string>, contents: map<string, string>)
    ensures Present(a + b, contents) == Present(a, contents) + Present(b, contents)
  {
    if |a| > 0 {
      assert (a + b)[1..] == a[1..] + b;
      PresentAppend(a[1..], b, contents);
    } else {
      assert a + b == b;
    }
  }

  /**
   A skipped file that is not the last list entry contributes nothing at all:
   the output is the same as if it had not been listed.
   */
  lemma {:induction false} SkippedFileLeavesNoTrace(files: seq<string>, contents: map<string, string>, addSeparators: bool, i: nat)
    requires i < |files| - 1
    requires ReadMarkdownFile(contents, files[i]) == ""
    ensures MergeDocument(files, contents, addSeparators)
         == MergeDocument(files[..i] + files[i + 1..], contents, addSeparators)
  {
    var without := files[..i] + files[i + 1..];
    if i == 0 {
      assert without == files[1..];
    } else {
      var tail := files[1..];
      assert tail[i - 1] == files[i];
      assert without[0] == files[0] && without[1..] == tail[..i - 1] + tail[i..];
      assert MergeDocument(tail, contents, addSeparators) == MergeDocument(without[1..], contents, addSeparators) by {
        SkippedFileLeavesNoTrace(tail, contents, addSeparators, i - 1);
      }
      MergeFront(files, contents, addSeparators);
      MergeFront(without, contents, addSeparators);
    }
  }

  /**
   A list entry named once, not last, whose file was emptied before the loop
   leaves the output of the other entries, with their own text, unchanged.
   */
  lemma OverwrittenInput(files: seq<string>, contents: map<string, string>, output: string, addSeparators: bool, i: nat)
    requires i < |files| - 1 && files[i] == output
    requires multiset(files)[output] == 1
    ensures MergeDocument(files, Truncated(contents, output), addSeparators)
         == MergeDocument(files[..i] + files[i + 1..], contents, addSeparators)
  {
    var rest := files[..i] + files[i + 1..];
    var emptied := Truncated(contents, output);
    SkippedFileLeavesNoTrace(files, emptied, addSeparators, i);
    OnlyOccurrence(files, i);
    forall j | 0 <= j < |rest|
      ensures ReadMarkdownFile(emptied, rest[j]) == ReadMarkdownFile(contents, rest[j])
    {
      assert rest[j] in rest;
    }
    MergeUsesListedFiles(rest, emptied, contents, addSeparators);
  }

  /** An entry that occurs once does not occur among the other entries. */
  lemma OnlyOccurrence(files: seq<string>, i: nat)
    requires i < |files| && multiset(files)[files[i]] == 1
    ensures files[i] !in files[..i] + files[i + 1..]
  {
    assert files == files[..i] + [files[i]] + files[i + 1..];
    assert multiset(files) == multiset(files[..i] + files[i + 1..]) + multiset{files[i]};
  }

  /** A list entry followed by another writes its contribution, separator included, before the rest. */
  lemma MergeFront(files: seq<string>, contents: map<string, string>, addSeparators: bool)
    requires |files| > 1
    ensures MergeDocument(files, contents, addSeparators)
         == Contribution(files[0], ReadMarkdownFile(contents, files[0]), addSeparators, true)
          + MergeDocument(files[1..], contents, addSeparators)
  {
  }

  /** Two files, the first lacking its final line terminator, merged with separators. */
  lemma TwoFilesWithSeparators()
    ensures MergeDocument(["A", "B"], map["A" := "foo", "B" := "bar\n"], true)
         == "<!-- Quelle: A -->\n\nfoo\n" + "\n---\n\n" + "<!-- Quelle: B -->\n\nbar\n"
  {
    TwoFiles(true);
  }

  /** The same two files without separators: the pieces directly follow each other. */
  lemma TwoFilesWithoutSeparators()
    ensures MergeDocument(["A", "B"], map["A" := "foo", "B" := "bar\n"], false)
         == "<!-- Quelle: A -->\n\nfoo\n" + "<!-- Quelle: B -->\n\nbar\n"
  {
    TwoFiles(false);
  }

  /** The two-file document, piece by piece. */
  lemma TwoFiles(addSeparators: bool)
    ensures MergeDocument(["A", "B"], map["A" := "foo", "B" := "bar\n"], addSeparators)
         == "<!-- Quelle: A -->\n\nfoo\n" + Glue(addSeparators) + "<!-- Quelle: B -->\n\nbar\n"
  {
    var contents := map["A" := "foo", "B" := "bar\n"];
    FirstOfTwo(addSeparators);
    SecondOfTwo(addSeparators);
    MergeFront(["A", "B"], contents, addSeparators);
    assert ["A", "B"][1..] == ["B"] && ["B"][1..] == [];
    assert MergeDocument(["B"], contents, addSeparators) == Contribution("B", "bar\n", addSeparators, false) + "";
  }

  /** The first of the two files lacks its terminator and is followed by another entry. */
  lemma FirstOfTwo(addSeparators: bool)
    ensures Contribution("A", "foo", addSeparators, true) == "<!-- Quelle: A -->\n\nfoo\n" + Glue(addSeparators)
  {
    assert !EndsWith("foo", "\n");
  }

  /** The second file already ends in a terminator and is the last entry. */
  lemma SecondOfTwo(addSeparators: bool)
    ensures Contribution("B", "bar\n", addSeparators, false) == "<!-- Quelle: B -->\n\nbar\n"
  {
    assert EndsWith("bar\n", "\n");
  }
}

=== FILE: order.dfy ===
/**
 Python's ordering of `str` values: lexicographic by code point, a proper
 prefix sorting first. Dafny's `<` on sequences means "proper prefix", so the
 order is written out here, shown to be a strict total order, and used by a
 stable insertion sort standing in for `sorted(...)` and `list.sort()`.
 */
module CodePointOrder {

  /** `a < b` on Python strings. */
  predicate Less(a: string, b: string)
    ensures Less(a, b) ==> |b| > 0
  {
    if |b| == 0 then false
    else if |a| == 0 then true
    else if a[0] != b[0] then a[0] < b[0]
    else Less(a[1..], b[1..])
  }

  /** `a <= b` on Python strings. */
  predicate LessEq(a: string, b: string)
  {
    a == b || Less(a, b)
  }

  /** `a` is a proper prefix of `b`. */
  predicate ProperPrefix(a: string, b: string)
  {
    |a| < |b| && a == b[..|a|]
  }

  /** At the first position where `a` and `b` differ, `a` has the smaller code point. */
  predicate SmallerAtFirstDifference(a: string, b: string)
  {
    exists k :: 0 <= k < |a| && k < |b| && a[..k] == b[..k] && a[k] < b[k]
  }

  /**
   Reference reading of the string order: `a` sorts before `b` exactly when it
   is a proper prefix of `b` or has the smaller code point where they first differ.
   */
  lemma {:induction false} LessIff(a: string, b: string)
    ensures Less(a, b) <==> ProperPrefix(a, b) || SmallerAtFirstDifference(a, b)
  {
    if |b| == 0 {
    } else if |a| == 0 {
      assert a == b[..0];
    } else if a[0] != b[0] {
      if a[0] < b[0] {
        assert a[..0] == b[..0];
      }
      if ProperPrefix(a, b) {
        assert a[0] == b[..|a|][0];
      }
      if SmallerAtFirstDifference(a, b) {
        var k :| 0 <= k < |a| && k < |b| && a[..k] == b[..k] && a[k] < b[k];
        assert k == 0 || a[..k][0] == b[..k][0];
      }
    } else {
      LessIff(a[1..], b[1..]);
      PrefixStep(a, b);
      DifferenceStep(a, b);
    }
  }

  /** Dropping a common first character keeps proper prefixes. */
  lemma PrefixStep(a: string, b: string)
    requires |a| > 0 && |b| > 0 && a[0] == b[0]
    ensures ProperPrefix(a, b) <==> ProperPrefix(a[1..], b[1..])
  {
    if ProperPrefix(a, b) {
      assert a[1..] == b[..|a|][1..] == b[1..][..|a| - 1];
    }
    if ProperPrefix(a[1..], b[1..]) {
      assert a == [a[0]] + a[1..];
      assert b[..|a|] == [b[0]] + b[1..][..|a| - 1];
    }
  }

  /** Dropping a common first character keeps the first difference, one position earlier. */
  lemma DifferenceStep(a: string, b: string)
    requires |a| > 0 && |b| > 0 && a[0] == b[0]
    ensures SmallerAtFirstDifference(a, b) <==> SmallerAtFirstDifference(a[1..], b[1..])
  {
    if SmallerAtFirstDifference(a, b) {
      var k :| 0 <= k < |a| && k < |b| && a[..k] == b[..k] && a[k] < b[k];
      assert k > 0;
      assert a[1..][..k - 1] == a[..k][1..] && b[1..][..k - 1] == b[..k][1..];
      assert a[1..][k - 1] == a[k] && b[1..][k - 1] == b[k];
    }
    if SmallerAtFirstDifference(a[1..], b[1..]) {
      var j :| 0 <= j < |a[1..]| && j < |b[1..]| && a[1..][..j] == b[1..][..j] && a[1..][j] < b[1..][j];
      assert a[..j + 1] == [a[0]] + a[1..][..j] && b[..j + 1] == [b[0]] + b[1..][..j];
      assert a[j + 1] == a[1..][j] && b[j + 1] == b[1..][j];
    }
  }

  lemma {:induction false} LessIrreflexive(a: string)
    ensures !Less(a, a)
  {
    if |a| > 0 {
      LessIrreflexive(a[1..]);
    }
  }

  lemma {:induction false} LessAsymmetric(a: string, b: string)
    ensures Less(a, b) ==> !Less(b, a)
  {
    if |a| > 0 && |b| > 0 && a[0] == b[0] {
      LessAsymmetric(a[1..], b[1..]);
    }
  }

  lemma {:induction false} LessTransitive(a: string, b: string, c: string)
    requires Less(a, b) && Less(b, c)
    ensures Less(a, c)
  {
    if |a| > 0 && a[0] == b[0] && b[0] == c[0] {
      LessTransitive(a[1..], b[1..], c[1..]);
    }
  }

  /** Any two distinct strings are ordered one way or the other. */
  lemma {:induction false} LessTotal(a: string, b: string)
    ensures a == b || Less(a, b) || Less(b, a)
  {
    if |a| > 0 && |b| > 0 && a[0] == b[0] {
      LessTotal(a[1..], b[1..]);
      if a[1..] == b[1..] {
        assert a == [a[0]] + a[1..] && b == [b[0]] + b[1..];
      }
    }
  }

  /** A proper prefix sorts first. */
  lemma {:induction false} PrefixIsLess(a: string, b: string)
    requires a < b
    ensures Less(a, b)
  {
    if |a| > 0 {
      PrefixIsLess(a[1..], b[1..]);
    }
  }

  /** A common prefix does not affect the comparison. */
  lemma {:induction false} LessCommonPrefix(p: string, a: string, b: string)
    ensures Less(p + a, p + b) <==> Less(a, b)
  {
    if |p| > 0 {
      assert (p + a)[1..] == p[1..] + a;
      assert (p + b)[1..] == p[1..] + b;
      assert |p + b| > 0 && |p + a| > 0 && (p + a)[0] == (p + b)[0];
      LessCommonPrefix(p[1..], a, b);
    } else {
      assert p + a == a && p + b == b;
    }
  }

  lemma LessEqTransitive(a: string, b: string, c: string)
    requires LessEq(a, b) && LessEq(b, c)
    ensures LessEq(a, c)
  {
    if a != b && b != c {
      LessTransitive(a, b, c);
    }
  }

  lemma LessEqAntisymmetric(a: string, b: string)
    requires LessEq(a, b) && LessEq(b, a)
    ensures a == b
  {
    LessAsymmetric(a, b);
  }

  /** Every pair of elements is in key order. */
  predicate SortedBy<T>(xs: seq<T>, key: T -> string)
  {
    forall i, j :: 0 <= i < j < |xs| ==> LessEq(key(xs[i]), key(xs[j]))
  }

  function Id(s: string): string
  {
    s
  }

  /** Ascending code-point order of the strings themselves. */
  predicate Sorted(xs: seq<string>)
  {
    SortedBy(xs, Id)
  }

  /** Puts `x` in front of the first element whose key is not smaller, keeping the order of equal keys. */
  function InsertBy<T>(x: T, xs: seq<T>, key: T -> string): (r: seq<T>)
    ensures multiset(r) == multiset(xs) + multiset{x}
  {
    if |xs| == 0 || LessEq(key(x), key(xs[0])) then [x] + xs
    else
      assert xs == [xs[0]] + xs[1..];
      [xs[0]] + InsertBy(x, xs[1..], key)
  }

  /** Inserting into a sorted sequence keeps it sorted. */
  lemma {:induction false} InsertBySorted<T>(x: T, xs: seq<T>, key: T -> string)
    requires SortedBy(xs, key)
    ensures SortedBy(InsertBy(x, xs, key), key)
  {
    if |xs| == 0 || LessEq(key(x), key(xs[0])) {
      forall j | 0 <= j < |xs|
        ensures LessEq(key(x), key(xs[j]))
      {
        if j > 0 {
          LessEqTransitive(key(x), key(xs[0]), key(xs[j]));
        }
      }
      SortedCons(x, xs, key);
    } else {
      SortedTail(xs, key);
      InsertBySorted(x, xs[1..], key);
      var tail := InsertBy(x, xs[1..], key);
      LessTotal(key(x), key(xs[0]));
      forall j | 0 <= j < |tail|
        ensures LessEq(key(xs[0]), key(tail[j]))
      {
        assert tail[j] in multiset(tail);
        if tail[j] != x {
          assert tail[j] in multiset(xs[1..]);
          var k :| 0 <= k < |xs[1..]| && xs[1..][k] == tail[j];
          assert xs[k + 1] == tail[j];
        }
      }
      SortedCons(xs[0], tail, key);
    }
  }

  /** `sorted(xs, key=key)`: a stable insertion sort. */
  function SortBy<T>(xs: seq<T>, key: T -> string): (r: seq<T>)
    ensures multiset(r) == multiset(xs)
    ensures |r| == |xs|
    ensures SortedBy(r, key)
  {
    if |xs| == 0 then []
    else
      assert xs == [xs[0]] + xs[1..];
      var sortedTail := SortBy(xs[1..], key);
      InsertBySorted(xs[0], sortedTail, key);
      InsertBy(xs[0], sortedTail, key)
  }

  /** `sorted(xs)` on a list of strings: a permutation of `xs` in ascending code-point order. */
  function Sort(xs: seq<string>): (r: seq<string>)
    ensures multiset(r) == multiset(xs)
    ensures Sorted(r)
  {
    SortBy(xs, Id)
  }

  /** No two different elements of `xs` share a key. */
  ghost predicate KeysDistinct<T>(xs: seq<T>, key: T -> string)
  {
    forall x, y :: x in xs && y in xs && key(x) == key(y) ==> x == y
  }

  /** The first element of a key-sorted sequence has the least key. */
  lemma SortedHeadIsLeast<T>(a: seq<T>, key: T -> string, x: T)
    requires SortedBy(a, key) && x in a
    ensures LessEq(key(a[0]), key(x))
  {
    var i :| 0 <= i < |a| && a[i] == x;
    if i > 0 {
      assert LessEq(key(a[0]), key(a[i]));
    }
  }

  lemma SortedTail<T>(a: seq<T>, key: T -> string)
    requires SortedBy(a, key) && |a| > 0
    ensures SortedBy(a[1..], key)
  {
    forall i, j | 0 <= i < j < |a[1..]|
      ensures LessEq(key(a[1..][i]), key(a[1..][j]))
    {
      assert a[1..][i] == a[i + 1] && a[1..][j] == a[j + 1];
    }
  }

  /** Two key-sorted sequences with the same elements and no key shared by different elements are equal. */
  lemma {:induction false} SortedUnique<T>(a: seq<T>, b: seq<T>, key: T -> string)
    requires SortedBy(a, key) && SortedBy(b, key)
    requires multiset(a) == multiset(b)
    requires KeysDistinct(a, key)
    ensures a == b
    decreases |a|
  {
    if |a| == 0 {
      assert |b| == |multiset(b)| == 0;
    } else {
      SameHead(a, b, key);
      SameTails(a, b);
      SortedTail(a, key);
      SortedTail(b, key);
      KeysDistinctTail(a, key);
      SortedUnique(a[1..], b[1..], key);
      assert a == [a[0]] + a[1..] && b == [b[0]] + b[1..];
    }
  }

  /** Sorted permutations without shared keys start with the same element. */
  lemma SameHead<T>(a: seq<T>, b: seq<T>, key: T -> string)
    requires SortedBy(a, key) && SortedBy(b, key)
    requires multiset(a) == multiset(b) && |a| > 0
    requires KeysDistinct(a, key)
    ensures |b| > 0 && a[0] == b[0]
  {
    assert a[0] in multiset(b);
    assert b[0] in multiset(a);
    SortedHeadIsLeast(a, key, b[0]);
    SortedHeadIsLeast(b, key, a[0]);
    LessEqAntisymmetric(key(a[0]), key(b[0]));
  }

  /** Removing the same first element from two permutations leaves permutations. */
  lemma SameTails<T>(a: seq<T>, b: seq<T>)
    requires multiset(a) == multiset(b) && |a| > 0 && |b| > 0 && a[0] == b[0]
    ensures multiset(a[1..]) == multiset(b[1..])
  {
    assert a == [a[0]] + a[1..] && b == [b[0]] + b[1..];
    calc {
      multiset(a[1..]);
      multiset(a) - multiset{a[0]};
      multiset(b) - multiset{b[0]};
      multiset(b[1..]);
    }
  }

  lemma KeysDistinctTail<T>(a: seq<T>, key: T -> string)
    requires KeysDistinct(a, key) && |a| > 0
    ensures KeysDistinct(a[1..], key)
  {
    assert forall x :: x in a[1..] ==> x in a;
  }

  /** Putting a key no greater than every key of a sorted sequence in front keeps it sorted. */
  lemma SortedCons<T>(x: T, xs: seq<T>, key: T -> string)
    requires SortedBy(xs, key)
    requires forall j :: 0 <= j < |xs| ==> LessEq(key(x), key(xs[j]))
    ensures SortedBy([x] + xs, key)
  {
    var r := [x] + xs;
    forall i, j | 0 <= i < j < |r|
      ensures LessEq(key(r[i]), key(r[j]))
    {
      assert r[j] == xs[j - 1];
      if i > 0 {
        assert r[i] == xs[i - 1];
      }
    }
  }

  /** Sorting strings depends only on which strings occur how often, not on their input order. */
  lemma SortDependsOnlyOnMultiset(xs: seq<string>, ys: seq<string>)
    requires multiset(xs) == multiset(ys)
    ensures Sort(xs) == Sort(ys)
  {
    SortedUnique(Sort(xs), Sort(ys), Id);
  }

  /** Sorting a sorted list of strings returns it unchanged; in particular `Sort` is idempotent. */
  lemma SortSorted(xs: seq<string>)
    requires Sorted(xs)
    ensures Sort(xs) == xs
  {
    SortedUnique(Sort(xs), xs, Id);
  }
}

=== FILE: paths.dfy ===
/**
 Path-string operations used by the directory walk and the validator:
 POSIX `os.path.join` of two components and the case-insensitive ".md" test.
 */
module Paths {
  import opened Strings

  /**
   `os.path.join(a, b)` on POSIX: an absolute `b` replaces `a`; otherwise a
   slash is inserted unless `a` is empty or already ends in one.
   */
  function JoinPath(a: string, b: string): (r: string)
    ensures EndsWith(r, b)
    ensures |b| > 0 && b[0] == '/' ==> r == b
    ensures !(|b| > 0 && b[0] == '/') ==>
      && |a| + |b| <= |r| <= |a| + |b| + 1
      && r[..|a|] == a
      && (|r| == |a| + |b| + 1 ==> r[|a|] == '/' && |a| > 0 && a[|a| - 1] != '/')
      && (|r| == |a| + |b| ==> |a| == 0 || a[|a| - 1] == '/')
  {
    if |b| > 0 && b[0] == '/' then b
    else if |a| == 0 || a[|a| - 1] == '/' then
      assert (a + b)[|a + b| - |b|..] == b;
      a + b
    else
      assert (a + "/" + b)[|a + "/" + b| - |b|..] == b;
      a + "/" + b
  }

  /** `path.lower().endswith('.md')`, with ASCII lower-casing. */
  predicate IsMarkdownPath(path: string)
  {
    EndsWith(Lower(path), ".md")
  }

  /** The test looks at the last three characters only: a dot, then 'm' or 'M', then 'd' or 'D'. */
  lemma MarkdownPathChars(path: string)
    ensures IsMarkdownPath(path) <==>
      && |path| >= 3
      && path[|path| - 3] == '.'
      && path[|path| - 2] in "mM"
      && path[|path| - 1] in "dD"
  {
    var l := Lower(path);
    if |path| >= 3 {
      var t := l[|l| - 3..];
      assert t == [l[|l| - 3], l[|l| - 2], l[|l| - 1]];
    }
  }

  /** Whatever precedes a Markdown-suffixed tail, the whole is still Markdown-suffixed. */
  lemma MarkdownSuffixClosed(a: string, b: string)
    requires IsMarkdownPath(b)
    ensures IsMarkdownPath(a + b)
  {
    MarkdownPathChars(b);
    MarkdownPathChars(a + b);
    var s := a + b;
    assert s[|s| - 3] == b[|b| - 3] && s[|s| - 2] == b[|b| - 2] && s[|s| - 1] == b[|b| - 1];
  }

  /** A path joined onto a Markdown file name is a Markdown path. */
  lemma JoinKeepsMarkdown(dir: string, name: string)
    requires IsMarkdownPath(name)
    ensures IsMarkdownPath(JoinPath(dir, name))
  {
    var r := JoinPath(dir, name);
    assert r == r[..|r| - |name|] + name;
    MarkdownSuffixClosed(r[..|r| - |name|], name);
  }
}

=== FILE: pipeline.dfy ===
/**
 The command-line driver (`main`): gather the inputs from an explicit file
 list or a directory walk, validate them, insist on at least two, ask before
 overwriting, then merge. Console output and exit codes are folded into an
 `Outcome`; the console answer and the filesystem are parameters.
 */
module Pipeline {
  import opened Strings
  import opened CodePointOrder
  import opened Collect
  import opened Validate
  import opened Merge

  /** The mutually exclusive input options `-f FILE...` and `-d DIRECTORY`. */
  datatype Source = FromFiles(paths: seq<string>) | FromDirectory(root: string, tree: Folder)

  /** The remaining options and the answers the outside world gives. */
  datatype Options = Options(
    output: string,        // `-o OUTPUT`
    addSeparators: bool,   // not `--no-separators`
    force: bool,           // `--force`
    answer: string,        // what the user types at the overwrite prompt
    writeSucceeds: bool)   // whether opening and writing the output succeeds

  /** The reasons `main` stops with exit status 1. */
  datatype Failure =
    | TooFewFilesGiven
    | DirectoryMissing
    | NotADirectory
    | NoValidFiles
    | TooFewValidFiles
    | WriteFailed

  datatype Gathered = Gathered(files: seq<string>) | Refused(reason: Failure)

  /** `Cancelled` is the declined overwrite prompt, which exits with status 0. */
  datatype Outcome = Merged(inputs: seq<string>, document: string) | Cancelled | Failed(reason: Failure)

  /**
   The validated input list, or the reason the arguments were refused before
   validation. A gathered list holds each valid path as often as the arguments
   or the walk produced it, and nothing else.
   */
  function GatherInputs(source: Source, fs: FileSystem): (g: Gathered)
    ensures g.Gathered? ==> Sorted(g.files) && forall p :: p in g.files ==> IsValidInput(fs, p)
    ensures g == Refused(TooFewFilesGiven) <==> source.FromFiles? && |source.paths| < 2
    ensures g == Refused(DirectoryMissing) <==> source.FromDirectory? && source.root !in fs
    ensures g == Refused(NotADirectory) <==>
      source.FromDirectory? && source.root in fs && fs[source.root] != Kind.Directory
    ensures g.Refused? ==> g.reason in {TooFewFilesGiven, DirectoryMissing, NotADirectory}
    ensures g.Gathered? && source.FromFiles? ==>
      forall p :: multiset(g.files)[p] == if IsValidInput(fs, p) then multiset(source.paths)[p] else 0
    ensures g.Gathered? && source.FromDirectory? ==>
      forall p :: multiset(g.files)[p]
               == if IsValidInput(fs, p) then multiset(CollectMdFiles(source.root, source.tree))[p] else 0
  {
    match source
    case FromFiles(paths) =>
      if |paths| < 2 then Refused(TooFewFilesGiven)
      else Gathered(ValidateInputFiles(fs, paths).accepted)
    case FromDirectory(root, tree) =>
      if root !in fs then Refused(DirectoryMissing)
      else if fs[root] != Kind.Directory then Refused(NotADirectory)
      else Gathered(ValidateInputFiles(fs, CollectMdFiles(root, tree)).accepted)
  }

  /** The overwrite prompt accepts "j", "ja", "y" or "yes" in any letter case. */
  predicate Confirms(answer: string)
    ensures Confirms(answer) ==> 1 <= |answer| <= 3
  {
    Lower(answer) in {"j", "ja", "y", "yes"}
  }

  /** The prompt ignores case, but takes only the four words: "N", "jaa" and the empty answer decline. */
  lemma ConfirmsAnswers()
    ensures Confirms("J") && Confirms("Ja") && Confirms("YES") && Confirms("y")
    ensures !Confirms("N") && !Confirms("jaa") && !Confirms("")
  {
    assert Lower("J") == "j" && Lower("Ja") == "ja" && Lower("YES") == "yes" && Lower("y") == "y";
    assert Lower("N") == "n" && Lower("jaa") == "jaa";
  }

  /** The output may be written: it does not exist yet, `--force` was given, or the prompt was confirmed. */
  predicate OverwriteAllowed(fs: FileSystem, opts: Options)
  {
    opts.output !in fs || opts.force || Confirms(opts.answer)
  }

  /** Whether enough valid inputs were gathered to go on to the output checks. */
  predicate Enough(g: Gathered)
  {
    g.Gathered? && |g.files| >= 2
  }

  /**
   `main` after argument parsing. The inputs are read only after the output
   has been opened for writing, so an input that is the output itself reads
   as empty.
   */
  function Run(source: Source, fs: FileSystem, contents: map<string, string>, opts: Options): (o: Outcome)
    ensures o.Merged? ==>
      && GatherInputs(source, fs) == Gathered(o.inputs)
      && |o.inputs| >= 2
      && Sorted(o.inputs)
      && (forall p :: p in o.inputs ==> IsValidInput(fs, p))
      && o.document == MergeDocument(o.inputs, Truncated(contents, opts.output), opts.addSeparators)
    ensures o.Merged? <==> Enough(GatherInputs(source, fs)) && OverwriteAllowed(fs, opts) && opts.writeSucceeds
    ensures o.Cancelled? <==> Enough(GatherInputs(source, fs)) && !OverwriteAllowed(fs, opts)
    ensures o == Failed(WriteFailed) <==>
      Enough(GatherInputs(source, fs)) && OverwriteAllowed(fs, opts) && !opts.writeSucceeds
    ensures o == Failed(NoValidFiles) <==> GatherInputs(source, fs) == Gathered([])
    ensures o == Failed(TooFewValidFiles) <==>
      GatherInputs(source, fs).Gathered? && |GatherInputs(source, fs).files| == 1
    ensures GatherInputs(source, fs).Refused? ==> o == Failed(GatherInputs(source, fs).reason)
    ensures o.Failed? && o.reason in {TooFewFilesGiven, DirectoryMissing, NotADirectory} ==>
      GatherInputs(source, fs) == Refused(o.reason)
  {
    match GatherInputs(source, fs)
    case Refused(why) => Failed(why)
    case Gathered(files) =>
      if |files| == 0 then Failed(NoValidFiles)
      else if |files| < 2 then Failed(TooFewValidFiles)
      else if opts.output in fs && !opts.force && !Confirms(opts.answer) then Cancelled
      else if !opts.writeSucceeds then Failed(WriteFailed)
      else Merged(files, MergeDocument(files, Truncated(contents, opts.output), opts.addSeparators))
  }

  /** When the output is not one of the inputs, the merged text is that of the inputs as they were. */
  lemma OutputNotAmongInputs(source: Source, fs: FileSystem, contents: map<string, string>, opts: Options)
    requires Run(source, fs, contents, opts).Merged?
    requires opts.output !in Run(source, fs, contents, opts).inputs
    ensures var o := Run(source, fs, contents, opts);
      o.document == MergeDocument(o.inputs, contents, opts.addSeparators)
  {
    var o := Run(source, fs, contents, opts);
    MergeUsesListedFiles(o.inputs, Truncated(contents, opts.output), contents, opts.addSeparators);
  }

  /**
   An existing output named once among the inputs, and not last, is emptied
   before it is read: the merged text is that of the other inputs alone, and
   the old text of the output is lost.
   */
  lemma OutputAmongInputs(source: Source, fs: FileSystem, contents: map<string, string>, opts: Options, i: nat)
    requires Run(source, fs, contents, opts).Merged?
    requires i < |Run(source, fs, contents, opts).inputs| - 1
    requires Run(source, fs, contents, opts).inputs[i] == opts.output
    requires multiset(Run(source, fs, contents, opts).inputs)[opts.output] == 1
    ensures var o := Run(source, fs, contents, opts);
      o.document == MergeDocument(o.inputs[..i] + o.inputs[i + 1..], contents, opts.addSeparators)
  {
    var o := Run(source, fs, contents, opts);
    OverwrittenInput(o.inputs, contents, opts.output, opts.addSeparators, i);
  }

  /**
   The directory mode validates exactly the Markdown paths of the tree: a path
   survives exactly when it occurs in the tree and is a valid input, as often
   as it occurs there, in ascending code-point order.
   */
  lemma DirectoryInputs(fs: FileSystem, root: string, tree: Folder)
    requires root in fs && fs[root] == Kind.Directory
    ensures var g := GatherInputs(FromDirectory(root, tree), fs);
      && g.Gathered?
      && Sorted(g.files)
      && forall p :: multiset(g.files)[p] == if IsValidInput(fs, p) then MdPaths(root, tree)[p] else 0
  {
    CollectComplete(root, tree);
  }

  /**
   Naming the tree's Markdown paths with `-f`, in any order, gathers the same
   list as walking the tree with `-d`: both are re-sorted by validation, so
   neither the walk order nor the argument order matters.
   */
  lemma BothModesAgree(fs: FileSystem, root: string, tree: Folder, paths: seq<string>)
    requires root in fs && fs[root] == Kind.Directory
    requires |paths| >= 2
    requires multiset(paths) == MdPaths(root, tree)
    ensures GatherInputs(FromFiles(paths), fs) == GatherInputs(FromDirectory(root, tree), fs)
  {
    CollectComplete(root, tree);
    ValidateIgnoresInputOrder(fs, paths, CollectMdFiles(root, tree));
  }

  /** With two or more arguments, the run stops for lack of valid files exactly when none of them is valid. */
  lemma NoValidFilesIff(paths: seq<string>, fs: FileSystem, contents: map<string, string>, opts: Options)
    requires |paths| >= 2
    ensures Run(FromFiles(paths), fs, contents, opts) == Failed(NoValidFiles)
        <==> forall i :: 0 <= i < |paths| ==> !IsValidInput(fs, paths[i])
  {
    ValidateNoneValid(fs, paths);
    assert GatherInputs(FromFiles(paths), fs) == Gathered(ValidateInputFiles(fs, paths).accepted);
  }

  /** One valid file among the arguments is not enough, however many were given. */
  lemma OneValidFileRefused(paths: seq<string>, p: string, fs: FileSystem, contents: map<string, string>, opts: Options)
    requires |paths| >= 2
    requires multiset(paths)[p] == 1 && IsValidInput(fs, p)
    requires forall i :: 0 <= i < |paths| && paths[i] != p ==> !IsValidInput(fs, paths[i])
    ensures Run(FromFiles(paths), fs, contents, opts) == Failed(TooFewValidFiles)
  {
    var accepted := ValidateInputFiles(fs, paths).accepted;
    assert multiset(accepted) == multiset{p} by {
      forall q
        ensures multiset(accepted)[q] == multiset{p}[q]
      {
        if q != p && IsValidInput(fs, q) {
          assert q !in paths;
        }
      }
    }
    assert |accepted| == |multiset(accepted)| == 1;
  }

  /**
   When every argument is a valid file and the run goes ahead, the merged
   inputs are the arguments in code-point order, duplicates kept.
   */
  lemma AllValidArgumentsMerged(paths: seq<string>, fs: FileSystem, contents: map<string, string>, opts: Options)
    requires |paths| >= 2
    requires forall i :: 0 <= i < |paths| ==> IsValidInput(fs, paths[i])
    requires opts.writeSucceeds && (opts.output !in fs || opts.force)
    ensures Run(FromFiles(paths), fs, contents, opts)
         == Merged(Sort(paths), MergeDocument(Sort(paths), Truncated(contents, opts.output), opts.addSeparators))
  {
    ValidateAllValid(fs, paths);
  }
}

=== FILE: strings.dfy ===
/**
 Text helpers shared by the merge pipeline, the configuration lookup and the
 upload filter: ASCII lower-casing, suffix tests, and splitting on a single
 separator character the way Python's `str.split(sep)` does.
 */
module Strings {

  /** `c.lower()` restricted to ASCII: 'A'..'Z' map to 'a'..'z', every other character is kept. */
  function LowerChar(c: char): char
  {
    if 'A' <= c <= 'Z' then (c as int + 32) as char else c
  }

  /** Concatenation regroups freely; stated once so that long concatenations need not be unfolded. */
  lemma AppendAssociative<T>(a: seq<T>, b: seq<T>, c: seq<T>)
    ensures (a + b) + c == a + (b + c)
  {
  }

  /** `s.lower()` restricted to ASCII, character by character. */
  function Lower(s: string): (r: string)
    ensures |r| == |s|
  {
    seq(|s|, i requires 0 <= i < |s| => LowerChar(s[i]))
  }

  /**
   Lower-casing moves each upper-case ASCII letter 32 code points up, to its
   lower-case partner, and keeps every other character.
   */
  lemma LowerLetters(s: string)
    ensures forall i :: 0 <= i < |s| && 'A' <= s[i] <= 'Z' ==> Lower(s)[i] as int == s[i] as int + 32
    ensures forall i :: 0 <= i < |s| && !('A' <= s[i] <= 'Z') ==> Lower(s)[i] == s[i]
  {
  }

  predicate EndsWith(s: string, suffix: string)
  {
    |suffix| <= |s| && s[|s| - |suffix|..] == suffix
  }

  /** Lower-casing leaves no upper-case ASCII letter behind, and a second pass changes nothing. */
  lemma LowerIdempotent(s: string)
    ensures Lower(Lower(s)) == Lower(s)
    ensures forall i :: 0 <= i < |s| ==> !('A' <= Lower(s)[i] <= 'Z')
  {
  }

  /**
   `s.split(sep)`: the maximal runs of characters between separators, in order.
   An empty string yields one empty segment and every separator starts a new
   segment, so the result always has one more element than `s` has separators.
   */
  function Split(s: string, sep: char): (r: seq<string>)
    ensures |r| >= 1
    ensures forall i :: 0 <= i < |r| ==> sep !in r[i]
  {
    if |s| == 0 then [""]
    else
      var rest := Split(s[1..], sep);
      if s[0] == sep then [""] + rest
      else [[s[0]] + rest[0]] + rest[1..]
  }

  /** `sep.join(segments)`. */
  function Join(segments: seq<string>, sep: char): string
    requires |segments| >= 1
  {
    if |segments| == 1 then segments[0]
    else segments[0] + [sep] + Join(segments[1..], sep)
  }

  /** Splitting and joining again restores the text exactly. */
  lemma {:induction false} JoinSplit(s: string, sep: char)
    ensures Join(Split(s, sep), sep) == s
  {
    if |s| > 0 {
      var rest := Split(s[1..], sep);
      JoinSplit(s[1..], sep);
      if s[0] == sep {
        assert Split(s, sep) == [""] + rest;
        assert Join([""] + rest, sep) == "" + [sep] + Join(rest, sep);
        assert s == [s[0]] + s[1..];
      } else {
        var r := [[s[0]] + rest[0]] + rest[1..];
        assert Split(s, sep) == r;
        if |rest| == 1 {
          assert Join(r, sep) == [s[0]] + rest[0];
        } else {
          assert r[1..] == rest[1..];
          assert Join(rest, sep) == rest[0] + [sep] + Join(rest[1..], sep);
          assert Join(r, sep) == [s[0]] + rest[0] + [sep] + Join(rest[1..], sep);
        }
        assert s == [s[0]] + s[1..];
      }
    }
  }

  /** A segment free of separators followed by a separator becomes a segment of its own. */
  lemma {:induction false} SplitSegment(a: string, sep: char, t: string)
    requires sep !in a
    ensures Split(a + [sep] + t, sep) == [a] + Split(t, sep)
  {
    if |a| == 0 {
      assert a + [sep] + t == [sep] + t;
      assert ([sep] + t)[1..] == t;
    } else {
      assert (a + [sep] + t)[1..] == a[1..] + [sep] + t;
      SplitSegment(a[1..], sep, t);
      assert [a[0]] + a[1..] == a;
    }
  }

  /** A separator-free text is a single segment. */
  lemma {:induction false} SplitNoSeparator(a: string, sep: char)
    requires sep !in a
    ensures Split(a, sep) == [a]
  {
    if |a| > 0 {
      SplitNoSeparator(a[1..], sep);
      assert [a[0]] + a[1..] == a;
    }
  }

  /** Joining separator-free segments and splitting again restores the segments. */
  lemma {:induction false} SplitJoin(segments: seq<string>, sep: char)
    requires |segments| >= 1
    requires forall i :: 0 <= i < |segments| ==> sep !in segments[i]
    ensures Split(Join(segments, sep), sep) == segments
  {
    if |segments| == 1 {
      SplitNoSeparator(segments[0], sep);
    } else {
      SplitJoin(segments[1..], sep);
      SplitSegment(segments[0], sep, Join(segments[1..], sep));
      assert [segments[0]] + segments[1..] == segments;
    }
  }
}

=== FILE: upload.dfy ===
/**
 The upload filter of the web front end (`allowed_file`): a file name is
 accepted when it contains a dot and the text after its last dot, lower-cased,
 is one of five extensions.
 */
module Upload {
  import opened Strings

  /** `ALLOWED_EXTENSIONS`, without the dot. */
  const AllowedExtensions: set<string> := {"md", "txt", "yml", "yaml", "json"}

  /** The index of the last '.' before position `n` of `s`, or -1 when there is none. */
  function LastDotBelow(s: string, n: nat): (i: int)
    requires n <= |s|
    ensures -1 <= i < n
    ensures i >= 0 ==> s[i] == '.'
    ensures forall k :: i < k < n ==> s[k] != '.'
  {
    if n == 0 then -1
    else if s[n - 1] == '.' then n - 1
    else LastDotBelow(s, n - 1)
  }

  /** The index of the last '.' in `s`, or -1 when there is none. */
  function LastDot(s: string): (i: int)
    ensures -1 <= i < |s|
    ensures i == -1 <==> '.' !in s
    ensures i >= 0 ==> s[i] == '.' && '.' !in s[i + 1..]
  {
    LastDotBelow(s, |s|)
  }

  /** A dot with no dot after it is the last dot. */
  lemma LastDotUnique(s: string, i: int)
    requires 0 <= i < |s| && s[i] == '.' && '.' !in s[i + 1..]
    ensures LastDot(s) == i
  {
    var j := LastDot(s);
  }

  /** `filename.rsplit('.', 1)[1]`: what follows the last dot. */
  function Extension(filename: string): (ext: string)
    requires '.' in filename
    ensures '.' !in ext && |ext| < |filename|
    ensures filename == filename[..|filename| - |ext| - 1] + "." + ext
  {
    var i := LastDot(filename);
    assert filename == filename[..i] + "." + filename[i + 1..];
    filename[i + 1..]
  }

  /** `allowed_file(filename)`. */
  predicate AllowedFile(filename: string)
    ensures AllowedFile(filename) ==> '.' in filename && |filename| >= 3
  {
    '.' in filename && Lower(Extension(filename)) in AllowedExtensions
  }

  /** Splitting a name at a dot with no dot after it: the part after it is the extension. */
  lemma ExtensionOfSplit(stem: string, ext: string)
    requires '.' !in ext
    ensures '.' in stem + "." + ext
    ensures Extension(stem + "." + ext) == ext
  {
    var s := stem + "." + ext;
    assert s[|stem|] == '.';
    assert s[|stem| + 1..] == ext;
    LastDotUnique(s, |stem|);
  }

  /**
   A name made of any stem, a dot and a dot-free last segment is accepted
   exactly when that segment, lower-cased, is an allowed extension.
   */
  lemma AllowedFileSplit(stem: string, ext: string)
    requires '.' !in ext
    ensures AllowedFile(stem + "." + ext) <==> Lower(ext) in AllowedExtensions
  {
    ExtensionOfSplit(stem, ext);
  }

  /**
   Reference reading of the filter: a name is accepted exactly when some dot in
   it has no dot after it and the lower-cased text after that dot is allowed;
   in particular a name without a dot is rejected.
   */
  lemma AllowedFileIff(filename: string)
    ensures AllowedFile(filename) <==>
      exists i :: 0 <= i < |filename| && filename[i] == '.' && '.' !in filename[i + 1..]
                 && Lower(filename[i + 1..]) in AllowedExtensions
  {
    if '.' in filename {
      var i := LastDot(filename);
      forall j | 0 <= j < |filename| && filename[j] == '.' && '.' !in filename[j + 1..]
        ensures j == i
      {
        LastDotUnique(filename, j);
      }
    }
  }

  /** Lower-casing never creates or removes a dot. */
  lemma LowerKeepsDots(s: string)
    ensures forall k :: 0 <= k < |s| ==> (Lower(s)[k] == '.' <==> s[k] == '.')
  {
  }

  /** The filter ignores letter case: a name and its lower-cased form are accepted alike. */
  lemma AllowedFileIgnoresCase(filename: string)
    ensures AllowedFile(Lower(filename)) <==> AllowedFile(filename)
  {
    var low := Lower(filename);
    LowerKeepsDots(filename);
    if '.' in filename {
      var i := LastDot(filename);
      assert low[i] == '.';
      assert '.' !in low[i + 1..] by {
        forall k | i + 1 <= k < |low|
          ensures low[k] != '.'
        {
          assert filename[k] == filename[i + 1..][k - i - 1];
        }
      }
      LastDotUnique(low, i);
      assert low[i + 1..] == Lower(filename[i + 1..]);
      LowerIdempotent(filename[i + 1..]);
    } else {
      assert '.' !in low by {
        forall k | 0 <= k < |low|
          ensures low[k] != '.'
        {
          assert filename[k] in filename;
        }
      }
    }
  }

  /** Only the last segment counts: "a.md.exe" is refused. */
  lemma DoubleExtensionRefused()
    ensures !AllowedFile("a.md.exe")
  {
    assert Lower("exe") == "exe";
    AllowedFileSplit("a.md", "exe");
    assert "a.md" + "." + "exe" == "a.md.exe";
  }

  /** ... and "b.exe.md" is accepted. */
  lemma DoubleExtensionAccepted()
    ensures AllowedFile("b.exe.md")
  {
    assert Lower("md") == "md";
    AllowedFileSplit("b.exe", "md");
    assert "b.exe" + "." + "md" == "b.exe.md";
  }

  /** An upper-case extension is accepted. */
  lemma UpperCaseExtension()
    ensures AllowedFile("README.MD")
  {
    assert Lower("MD") == "md";
    AllowedFileSplit("README", "MD");
    assert "README" + "." + "MD" == "README.MD";
  }

  /** A trailing dot leaves an empty, refused extension, and a name without a dot is refused. */
  lemma CaseAndTrailingDot()
    ensures !AllowedFile("notes.")
    ensures !AllowedFile("README")
  {
    AllowedFileSplit("notes", "");
    assert "notes" + "." + "" == "notes.";
    assert '.' !in "README";
  }
}

=== FILE: validate.dfy ===
/**
 Input validation (`validate_input_files`): keep the paths that exist, are
 regular files and carry a ".md" suffix in any letter case, warn once for each
 path dropped, and return the survivors sorted by code point.
 */
module Validate {
  import opened CodePointOrder
  import opened Paths
  import Strings

  /** What `os.path.exists` and `os.path.isfile` would report about an existing path. */
  datatype Kind = RegularFile | Directory | Other

  /** The existing paths with their kinds; a path that is not a key does not exist. */
  type FileSystem = map<string, Kind>

  /** The three warnings, in the order the checks are made. */
  datatype Rejection = DoesNotExist(path: string) | NotAFile(path: string) | NotMarkdown(path: string)

  datatype Verdict = Accept | Reject(reason: Rejection)

  /** The outcome of one validation pass: the surviving paths and one warning per dropped input. */
  datatype Validation = Validation(accepted: seq<string>, warnings: seq<Rejection>)

  predicate IsValidInput(fs: FileSystem, path: string)
  {
    path in fs && fs[path] == RegularFile && IsMarkdownPath(path)
  }

  /** The checks for one path, first failing check wins. */
  function Check(fs: FileSystem, path: string): (v: Verdict)
    ensures v == Accept <==> IsValidInput(fs, path)
    ensures v == Reject(DoesNotExist(path)) <==> path !in fs
    ensures v == Reject(NotAFile(path)) <==> path in fs && fs[path] != RegularFile
    ensures v == Reject(NotMarkdown(path)) <==> path in fs && fs[path] == RegularFile && !IsMarkdownPath(path)
    ensures v.Reject? ==> v.reason.path == path
  {
    if path !in fs then Reject(DoesNotExist(path))
    else if fs[path] != RegularFile then Reject(NotAFile(path))
    else if !IsMarkdownPath(path) then Reject(NotMarkdown(path))
    else Accept
  }

  /** The accepted inputs in input order, duplicates included. */
  function Survivors(fs: FileSystem, files: seq<string>): (r: seq<string>)
    ensures |r| <= |files|
    ensures forall p :: p in r ==> p in files && IsValidInput(fs, p)
  {
    if |files| == 0 then []
    else (if Check(fs, files[0]) == Accept then [files[0]] else []) + Survivors(fs, files[1..])
  }

  /** Each valid path survives as often as it was given; nothing else survives. */
  lemma {:induction false} SurvivorsCount(fs: FileSystem, files: seq<string>)
    ensures forall p :: multiset(Survivors(fs, files))[p] == if IsValidInput(fs, p) then multiset(files)[p] else 0
  {
    if |files| > 0 {
      assert files == [files[0]] + files[1..];
      SurvivorsCount(fs, files[1..]);
    }
  }

  /** One warning per rejected input; `WarningsInOrder` shows they come in input order. */
  function Warnings(fs: FileSystem, files: seq<string>): (w: seq<Rejection>)
    ensures |w| + |Survivors(fs, files)| == |files|
    ensures forall k :: 0 <= k < |w| ==> w[k].path in files && !IsValidInput(fs, w[k].path)
    ensures forall k :: 0 <= k < |w| ==> Check(fs, w[k].path) == Reject(w[k])
  {
    if |files| == 0 then []
    else
      var rest := Warnings(fs, files[1..]);
      assert forall k :: 0 <= k < |rest| ==> rest[k].path in files;
      match Check(fs, files[0])
      case Accept => rest
      case Reject(why) => [why] + rest
  }

  /** The warnings an input list starting with `p` begins with: `p`'s own rejection, if any. */
  function OwnWarning(fs: FileSystem, p: string): seq<Rejection>
  {
    if IsValidInput(fs, p) then [] else [Check(fs, p).reason]
  }

  /** The unfolding step of `Warnings`: the first input's own rejection, if any, then the warnings for the rest. */
  lemma WarningsFirst(fs: FileSystem, files: seq<string>)
    requires |files| > 0
    ensures Warnings(fs, files) == OwnWarning(fs, files[0]) + Warnings(fs, files[1..])
  {
  }

  /** So the warnings for `a + b` are those for `a` followed by those for `b`. */
  lemma {:induction false} WarningsInOrder(fs: FileSystem, a: seq<string>, b: seq<string>)
    ensures Warnings(fs, a + b) == Warnings(fs, a) + Warnings(fs, b)
  {
    if |a| > 0 {
      assert (a + b)[0] == a[0];
      assert (a + b)[1..] == a[1..] + b;
      WarningsFirst(fs, a + b);
      WarningsFirst(fs, a);
      WarningsInOrder(fs, a[1..], b);
      Strings.AppendAssociative(OwnWarning(fs, a[0]), Warnings(fs, a[1..]), Warnings(fs, b));
    } else {
      assert a + b == b;
    }
  }

  /** The paths the warnings name, in order. */
  function WarnedPaths(w: seq<Rejection>): (r: seq<string>)
    ensures |r| == |w|
  {
    if |w| == 0 then [] else [w[0].path] + WarnedPaths(w[1..])
  }

  /** Each invalid input is warned about as often as it was given; a valid one never. */
  lemma {:induction false} WarningsCount(fs: FileSystem, files: seq<string>)
    ensures forall p :: multiset(WarnedPaths(Warnings(fs, files)))[p]
                     == if IsValidInput(fs, p) then 0 else multiset(files)[p]
  {
    if |files| > 0 {
      assert files == [files[0]] + files[1..];
      WarningsCount(fs, files[1..]);
      var rest := Warnings(fs, files[1..]);
      match Check(fs, files[0])
      case Accept =>
      case Reject(why) =>
        assert ([why] + rest)[1..] == rest;
    }
  }

  /**
   `validate_input_files(files)`: exactly the valid inputs, each as often as it
   was given, in ascending code-point order; every other input yields a warning.
   */
  function ValidateInputFiles(fs: FileSystem, files: seq<string>): (v: Validation)
    ensures Sorted(v.accepted)
    ensures forall p :: multiset(v.accepted)[p] == if IsValidInput(fs, p) then multiset(files)[p] else 0
    ensures forall p :: p in v.accepted <==> p in files && IsValidInput(fs, p)
    ensures |v.accepted| + |v.warnings| == |files|
  {
    var accepted := Sort(Survivors(fs, files));
    SurvivorsCount(fs, files);
    assert forall p :: p in accepted <==> p in files && IsValidInput(fs, p) by {
      forall p
        ensures p in accepted <==> p in files && IsValidInput(fs, p)
      {
        assert p in accepted <==> p in multiset(accepted);
        assert p in files <==> p in multiset(files);
      }
    }
    Validation(accepted, Warnings(fs, files))
  }

  /** The accepted list depends only on which paths were given how often, not on their order. */
  lemma ValidateIgnoresInputOrder(fs: FileSystem, a: seq<string>, b: seq<string>)
    requires multiset(a) == multiset(b)
    ensures ValidateInputFiles(fs, a).accepted == ValidateInputFiles(fs, b).accepted
  {
    var sa, sb := Survivors(fs, a), Survivors(fs, b);
    SurvivorsCount(fs, a);
    SurvivorsCount(fs, b);
    assert multiset(sa) == multiset(sb) by {
      forall p
        ensures multiset(sa)[p] == multiset(sb)[p]
      {
      }
    }
    SortDependsOnlyOnMultiset(sa, sb);
  }

  /** Validating an already validated list accepts all of it, unchanged, with no warning. */
  lemma ValidateIdempotent(fs: FileSystem, files: seq<string>)
    ensures var once := ValidateInputFiles(fs, files).accepted;
      && ValidateInputFiles(fs, once).accepted == once
      && ValidateInputFiles(fs, once).warnings == []
  {
    var once := ValidateInputFiles(fs, files).accepted;
    var again := Survivors(fs, once);
    SurvivorsCount(fs, once);
    assert multiset(again) == multiset(once) by {
      forall p
        ensures multiset(again)[p] == multiset(once)[p]
      {
        if !IsValidInput(fs, p) {
          assert p !in once;
        }
      }
    }
    assert |again| == |multiset(again)| == |once|;
    SortDependsOnlyOnMultiset(again, once);
    SortSorted(once);
  }

  /** When every input is valid, validation is exactly the code-point sort of the inputs. */
  lemma ValidateAllValid(fs: FileSystem, files: seq<string>)
    requires forall i :: 0 <= i < |files| ==> IsValidInput(fs, files[i])
    ensures ValidateInputFiles(fs, files).accepted == Sort(files)
    ensures ValidateInputFiles(fs, files).warnings == []
  {
    var kept := Survivors(fs, files);
    SurvivorsCount(fs, files);
    assert multiset(kept) == multiset(files) by {
      forall p
        ensures multiset(kept)[p] == multiset(files)[p]
      {
        if !IsValidInput(fs, p) {
          assert p !in files;
        }
      }
    }
    assert |kept| == |multiset(kept)| == |files|;
    SortDependsOnlyOnMultiset(kept, files);
  }

  /** Nothing is accepted exactly when no input is valid. */
  lemma ValidateNoneValid(fs: FileSystem, files: seq<string>)
    ensures ValidateInputFiles(fs, files).accepted == []
        <==> forall i :: 0 <= i < |files| ==> !IsValidInput(fs, files[i])
  {
    var accepted := ValidateInputFiles(fs, files).accepted;
    if accepted != [] {
      assert accepted[0] in accepted;
    }
  }
}
